=== FILE: README.md ===
# Cloth simulator core, modelled in Dafny

This project models the discrete core of the `Cloth` class of a small
mass–spring cloth simulator (`src/cloth.cpp`). A cloth is `R` ropes of `C`
points each. Point `i` of rope `j` is stored at flat index `j·C + i`.

The model covers these parts of the class:

- **Construction.** The constructor lays the points out on a plane, starts
  them at rest and unlocked, and assigns texture coordinates. It also emits
  the fixed triangle index list: two triangles per grid cell, six indices per
  cell, and the triangle count.
- **`LockNode`.** It writes one lock flag.
- **`calcForces`.** It starts every point at gravity `(0, -0.1, 0)`. It then
  adds the structural springs along the ropes, then the springs across them.
  Each spring adds its force to one endpoint and the negated force to the
  other. Last, it adds the aerodynamic drag of every cell's two triangles.
- **`Update(dt)`.** This is the improved Euler step. It evaluates forces `F0`
  and gives every unlocked point a half-kick `F0·dt/(2m)`. It then moves the
  point with its new velocity. It evaluates forces `F1` on that predicted
  state and gives a second half-kick `F1·dt/(2m)`. Locked points are skipped
  in both loops.

Modules:

- `Vectors`: a real 3-vector standing in for `glm::vec3`, and the sum of a
  sequence of vectors.
- `Grid`: flat indexing, and `Pairs(m, n)`, the visiting order of any double
  loop with `m` outer and `n` inner steps. The constructor's index loop, the
  rope springs and the drag loop have ropes outer; the cross-spring loop has
  positions outer and ropes inner.
- `Mesh`: the triangle index list, and the constructor's loop as a method.
- `Springs`: the two spring families and the accumulation loop.
- `Forces`: `calcForces` as a whole.
- `Simulation`: the cloth state, construction, `LockNode`, `Update` and
  repeated steps.

Geometry is kept honest without floating point:

- Vector length and normalisation (`glm::length`, `glm::normalize`) are
  uninterpreted functions, the fields of `Forces.Geometry`. No property of
  them is assumed.
- Sums, differences, dot and cross products and scaling are exact real
  arithmetic.
- The spring and drag formulas are written out in full. The properties
  proved about them hold for every choice of length and normalisation.

Behaviour the model keeps exactly as the code has it:

- The texture coordinate of point `i` of rope `j` is `(j/C, i/C)`. Both
  coordinates are divided by the number of points per rope, so `u` exceeds 1
  when there are more than `C + 1` ropes.
- A zero-length spring is not skipped. Its direction is whatever `normalize`
  returns.
- Each of the two half-kicks is `0.5·dt/m`. So after one step from rest, a free
  point under gravity alone has velocity `g·dt/m` (`Simulation.FreeFallFromRest`).
- The drag quirks of the code are kept as written:
  - weights 0.5 and 0.75;
  - the second triangle averages `v2 + v4 + v4`;
  - only the first triangle subtracts the air velocity, which is the zero
    vector;
  - the second triangle's share goes to corners 2, 4, 3 in that order.
- `LockNode` performs no range check. The only demand on its caller is that
  the flat index `x·C + y` lies in the array. That admits coordinates outside
  the grid, and `Simulation.LockNodeColumnOverflow` shows where they land.

## Model

| member | source | states |
|---|---|---|
| Grid.Index | src/cloth.cpp:32 | the flat index j·C + i of point i of rope j; it has no contract of its own, and Grid.IndexInRange, Grid.IndexRecover, Grid.IndexSurjective and Grid.IndexBijection state that it maps the R × C grid one-to-one onto [0, R·C) |
| Grid.Pairs | src/cloth.cpp:45-46 | a double loop with m outer and n inner steps makes m·n visits; Grid.PairsAt and Grid.PairsMembership state which pair each visit is and that the visits are exactly the m × n rectangle |
| Grid.IndexInRange | src/cloth.cpp:30-32 | a point (j, i) of the R × C grid has flat index below R·C |
| Grid.IndexRecover | src/cloth.cpp:32 | dividing j·C + i by C gives back the rope j, and the remainder gives back the position i |
| Grid.IndexSurjective | src/cloth.cpp:30-32 | every flat index below R·C is the index of a grid point, namely (k / C, k % C) |
| Grid.IndexBijection | src/cloth.cpp:30-32 | (j, i) ↦ j·C + i maps [0,R)×[0,C) into [0,R·C) without collisions; with IndexSurjective it is a bijection |
| Grid.PairsAt | src/cloth.cpp:45-46 | a double loop with m outer and n inner steps visits pair (j, i) at step j·n + i |
| Grid.PairsMembership | src/cloth.cpp:45-46 | the double loop visits a pair exactly when it lies in the m × n rectangle |
| Mesh.MeshSize | src/cloth.cpp:28-60 | the index list has 6·(R-1)·(C-1) entries, three per counted triangle, and both are zero when R = 1 or C = 1 |
| Mesh.TriangleCount | src/cloth.cpp:60 | `num_tris_`, two triangles per cell of the (R-1) × (C-1) grid; Mesh.MeshSize relates it to the index list's length and Mesh.BuildIndices shows the constructor's loop produces three indices per counted triangle |
| Mesh.CellIndices | src/cloth.cpp:47-57 | a cell's six indices start at point i of rope j; index2 is the next point on the rope, index3 the same position on the next rope (C further on) and index4 the point after it; the second triangle begins with index2 and index3, the two corners where the first triangle ends |
| Mesh.TriangleIndices | src/cloth.cpp:44-59 | the constructor's list holds six indices for each of the (R-1)·(C-1) cells; Mesh.CellLayout, Mesh.IndicesInRange and Mesh.TrianglesDistinct state its contents |
| Mesh.CellLayout | src/cloth.cpp:47-57 | cell (j, i) fills slots 6·(j·(C-1)+i) to +5 with (a, c, b, b, c, d), where a = j·C+i, b = a+1, c = (j+1)·C+i, d = c+1 |
| Mesh.IndicesInRange | src/cloth.cpp:45-58 | every emitted index names a point of the cloth (is below R·C) |
| Mesh.TrianglesDistinct | src/cloth.cpp:51-57 | no emitted triangle repeats a corner |
| Mesh.EmitStrip | src/cloth.cpp:46-58 | the inner loop for strip j appends exactly the six indices of each cell of that strip, in order |
| Mesh.BuildIndices | src/cloth.cpp:44-60 | the index loop produces exactly the triangulation, holding three indices per counted triangle |
| Springs.VerticalEdgeAt | src/cloth.cpp:229-233 | the spring visited at step j·(C-1)+i of the rope loop joins j·C+i to j·C+i+1 |
| Springs.HorizontalEdgeAt | src/cloth.cpp:250-254 | the spring visited at step j·(R-1)+i of the cross loop joins j + C·i to j + C·(i+1) |
| Springs.VerticalEdges | src/cloth.cpp:229-233 | the rope loop visits R·(C-1) springs; Springs.VerticalEdgeAt and Springs.VerticalEdgesAreRopeNeighbours state which pairs they join |
| Springs.HorizontalEdges | src/cloth.cpp:250-254 | the cross loop visits C·(R-1) springs; Springs.HorizontalEdgeAt and Springs.HorizontalEdgesAreCrossNeighbours state which pairs they join |
| Springs.ApplyEdges | src/cloth.cpp:244-246 | the accumulation loop keeps one force per point; its effect is stated by Springs.SpringsCancel, Springs.UntouchedPointUnchanged and Springs.SlackSpringsNoChange |
| Springs.VerticalEdgesAreRopeNeighbours | src/cloth.cpp:229-233 | a pair is a spring along the ropes if and only if it joins two consecutive points of one rope |
| Springs.HorizontalEdgesAreCrossNeighbours | src/cloth.cpp:250-254 | a pair is a spring across the ropes if and only if it joins the same position on two consecutive ropes |
| Springs.SpringsWithinCloth | src/cloth.cpp:232-254 | every spring of either family joins two distinct points of the cloth |
| Springs.SpringsCancel | src/cloth.cpp:244-246 | whatever force each spring exerts, adding it to one end and its negation to the other leaves the sum of all forces unchanged |
| Springs.UntouchedPointUnchanged | src/cloth.cpp:265-267 | a point that is the endpoint of no spring gets no spring force |
| Springs.SlackSpringsNoChange | src/cloth.cpp:244-246 | springs that exert zero force leave every accumulated force as it was |
| Forces.GravityField | src/cloth.cpp:224-227 | the force buffer starts with gravity (0, -0.1, 0) on every one of the R·C points |
| Forces.ApplySprings | src/cloth.cpp:229-269 | both spring loops, ropes first, keep one force per point; Forces.SpringPassConservesTotal and Forces.RestingSpringsNoChange state their effect |
| Vectors.SumAddAt | src/cloth.cpp:245 | accumulating a vector onto one point raises the total force by exactly that vector |
| Forces.SpringForce | src/cloth.cpp:234-244 | a spring whose length equals the rest length and whose two ends move with the same velocity exerts zero force |
| Forces.SpringForceAlongAxis | src/cloth.cpp:238-244 | a spring's force is parallel to its own direction normalize(pa - pb), whatever the stiffness, damping, length or velocities |
| Forces.Corners | src/cloth.cpp:274-277 | the four corners of a cell lie in the cloth, index2 = index1 + 1, index3 = index1 + C and index4 = index3 + 1 |
| Forces.FirstTriangleDrag | src/cloth.cpp:280-286 | the first triangle's drag acts along the normalised face normal (p1 - p2) × (p3 - p2) |
| Forces.SecondTriangleDrag | src/cloth.cpp:292-298 | the second triangle's drag acts along the normalised face normal (p2 - p4) × (p3 - p4) |
| Forces.TriangleDrag | src/cloth.cpp:282-286 | a triangle's per-corner drag res is parallel to the normalised normal, whatever the averaged velocity, weight and coefficient; Forces.TriangleDragVanishes states when it is zero |
| Forces.CellDrag | src/cloth.cpp:287-301 | the first triangle's share goes to corners 1, 2, 3 and the second's to 2, 4, 3: corners 1 and 4 receive one share each, corners 2 and 3 both, and every other point keeps its force |
| Forces.ApplyDrag | src/cloth.cpp:272-303 | applies each cell's drag pair in loop order and keeps one force per point; Forces.ApplyDragTotal and Forces.ZeroDragNoChange state its effect |
| Forces.DragPass | src/cloth.cpp:272-303 | the drag loop keeps one force per point; Forces.DragPassTotal states how much it adds to the total and Forces.DragPassVanishes when it changes nothing |
| Forces.CellDragTotal | src/cloth.cpp:287-301 | one cell raises the total force by three times the sum of its two triangle drags |
| Forces.ApplyDragTotal | src/cloth.cpp:272-303 | a run of cells raises the total force by three times the sum of all their triangle drags |
| Forces.DragPassTotal | src/cloth.cpp:272-303 | the drag loop over every cell of the cloth raises the total force by three times the sum of every triangle drag |
| Forces.CalcForces | src/cloth.cpp:223-306 | one net force per point; its contract gives only the length, and Forces.CalcForcesTotal, Forces.TotalForceWithoutDrag, Forces.NoDragForces and Forces.EquilibriumForces state what the forces are |
| Forces.CalcForcesTotal | src/cloth.cpp:223-306 | the forces of one evaluation add up to R·C times gravity plus three times the sum of every triangle drag: the springs contribute nothing to the total |
| Forces.SpringPassConservesTotal | src/cloth.cpp:229-269 | both spring loops together leave the total force unchanged, for any positions, velocities, length and normalisation |
| Forces.TotalForceWithoutDrag | src/cloth.cpp:223-303 | without drag, the forces of one evaluation add up to R·C times gravity |
| Forces.RestingSpringsNoChange | src/cloth.cpp:229-269 | with every spring at rest length and a common velocity, both spring loops leave the forces as they were |
| Forces.TriangleDragVanishes | src/cloth.cpp:280-286 | a triangle's drag is zero when the drag coefficient is zero or its averaged velocity is zero |
| Forces.DragVanishes | src/cloth.cpp:280-298 | with zero drag coefficient or every point at rest, both triangles of every cell exert zero drag |
| Forces.ZeroDragNoChange | src/cloth.cpp:287-301 | cells whose drag pairs are zero leave every accumulated force as it was |
| Forces.DragPassVanishes | src/cloth.cpp:272-303 | under the same hypotheses the whole drag loop changes no force |
| Forces.NoDragForces | src/cloth.cpp:223-303 | without drag, the net forces are gravity plus the two spring loops |
| Forces.EquilibriumForces | src/cloth.cpp:223-303 | with every spring at rest length and one common velocity (zero, or anything when there is no drag) every point feels gravity alone |
| Simulation.LayoutAt | src/cloth.cpp:32-39 | the constructor's slot j·C + i holds point i of rope j's position and texture coordinate |
| Simulation.StartPosition | src/cloth.cpp:33 | point i of rope j starts j rest lengths along x and i rest lengths along -z from (start_x, start_y, z_val), in the plane y = start_y |
| Simulation.StartSpacing | src/cloth.cpp:33 | neighbouring points start exactly one rest length apart: the first `diff` of the rope loop is (0, 0, L) and that of the cross loop is (-L, 0, 0) |
| Simulation.StartUV | src/cloth.cpp:39 | multiplying the texture coordinate of point i of rope j by C gives back (j, i), so v lies in [0, 1) for every point |
| Simulation.Layout | src/cloth.cpp:30-33 | the constructor's positions, one per point; Simulation.LayoutAt states that slot j·C + i holds point i of rope j |
| Simulation.UVLayout | src/cloth.cpp:30-39 | the constructor's texture coordinates, one per point; Simulation.LayoutAt states that slot j·C + i holds the coordinate of point i of rope j |
| Simulation.Init | src/cloth.cpp:30-41 | after construction point (j, i) sits at (x0 + j·L, y0, z0 - i·L) with UV (j/C, i/C), every point is at rest and unlocked, and the index list is the triangulation |
| Simulation.LockNode | src/cloth.cpp:153-156 | flag x·C + y becomes the requested value and every other flag, every position and velocity and the index list are unchanged |
| Simulation.LockNodeAtCoordinates | src/cloth.cpp:153-156 | with 0 ≤ x < R and 0 ≤ y < C, exactly point y of rope x changes its flag and no other grid point does |
| Simulation.LockNodeColumnOverflow | src/cloth.cpp:154 | the missing range check lets column C alias point 0 of the next rope |
| Simulation.LockNodeIdempotent | src/cloth.cpp:153-156 | repeating LockNode with the same arguments has no further effect |
| Simulation.LockUnlockRestores | src/cloth.cpp:153-156 | locking a free point and unlocking it again gives back the identical cloth |
| Simulation.Kick | src/cloth.cpp:169-178 | one half-kick dv satisfies 2m·dv = F·dt, so two half-kicks of the same force F change the velocity by F·dt / m |
| Simulation.Predict | src/cloth.cpp:163-171 | the first half of a step changes only positions and velocities, keeping every array's length, the index list and the triangle count; a locked point keeps its position and velocity |
| Simulation.Correct | src/cloth.cpp:173-179 | the second half of a step changes only velocities, keeping every position, every array's length, the index list and the triangle count; a locked point keeps its velocity |
| Simulation.Update | src/cloth.cpp:161-182 | a step leaves locked points' positions and velocities, all lock flags, texture coordinates, index list and triangle count untouched |
| Simulation.PredictedPoint | src/cloth.cpp:169-170 | an unlocked point's predicted velocity is v + F0·dt/(2m), and it moves by that velocity times dt |
| Simulation.UnlockedStep | src/cloth.cpp:165-179 | an unlocked point ends a step with velocity v + F0·dt/(2m) + F1·dt/(2m) and position p + (v + F0·dt/(2m))·dt, with F1 evaluated on the predicted state |
| Simulation.ZeroStepIsIdentity | src/cloth.cpp:161-179 | a step with dt = 0 changes nothing, whatever the forces |
| Simulation.AllLockedIsFrozen | src/cloth.cpp:165-177 | a cloth whose every point is locked does not move |
| Simulation.Simulate | src/cloth.cpp:161-182 | any sequence of steps keeps parameters, locks, texture coordinates, index list and triangle count |
| Simulation.LockedPointStaysPut | src/cloth.cpp:166-167 | a locked point keeps its position and velocity through any sequence of steps |
| Simulation.TranslationKeepsRest | src/cloth.cpp:234-235 | moving every point by one vector leaves every spring at its rest length if it was |
| Simulation.PredictFromRest | src/cloth.cpp:163-171 | from rest, with nothing locked, springs at rest length and any drag coefficient, the predicted state is a rigid translation with common velocity g·dt/(2m) |
| Simulation.FallForces | src/cloth.cpp:163-173 | from rest, with nothing locked, springs at rest length and no drag, both force evaluations of the step are gravity on every point |
| Simulation.FreeFallFromRest | src/cloth.cpp:161-179 | a free cloth at rest with springs at rest length and no drag ends one step with velocity g·dt/m and dropped by g·dt²/(2m) at every point |
| Simulation.KicksMomentum | src/cloth.cpp:169-178 | two half-kicks whose force fields each total f raise the total velocity by f·dt/m |
| Simulation.FreeKicks | src/cloth.cpp:165-179 | with nothing locked and no drag, a step applies v + F0·h + F1·h to every point, and F0 and F1 each total R·C·g |
| Simulation.MomentumWithoutDrag | src/cloth.cpp:161-179 | with no drag and nothing locked, one step changes the total velocity by exactly R·C·g·dt/m: the springs' contributions cancel |

## Left out

- Rendering and I/O: `initGL`, `Draw`, `updateGPU`, texture loading, the OpenGL calls in the destructor, `src/main.cpp`, `src/mesh.cpp` and `include/cloth_sim.h`. These are graphics-API, window and file plumbing with no behaviour of the core.
- Vertex normals and tangents (`calcVertexNormals`, `calcVertexTangents`, and the constructor's `norms_`/`tans_` initialisation). These are pure floating-point geometry. They are recomputed from positions and never feed back into the physics.
- Floating point: every `float` and `double` is a real. The `double` projections of the rope loop and the `float` ones of the cross loop therefore coincide. Rounding, overflow to infinity and NaN are not modelled.
- `glm::length` and `glm::normalize` are uninterpreted. So nothing is claimed about unit-length directions, zero-length springs or NaN-freedom; the source has no guard for these.
- 32-bit `int` arithmetic: `R·C`, the flat indices and `6·(R-1)·(C-1)` are unbounded naturals. Overflow for huge grids is not modelled.
- Memory: the `accels_` scratch array (allocated and zeroed, never read) and the per-step allocation and deletion of the force buffers.
- Forces.ValidParams: asks for R ≥ 1 and C ≥ 1, so grids with no rope or no point per rope are not modelled. The source's index buffer has `6·(R-1)·(C-1)` entries (src/cloth.cpp:28), which depends on the case: R = 0 with C ≥ 2, or C = 0 with R ≥ 2, gives a negative size. R = C = 0 gives 6 entries that are never written, while `num_tris_` becomes 2 (line 60), so the normal pass reads uninitialised indices. R = 0 with C = 1, or R = 1 with C = 0, gives size 0 and a working empty cloth.
- Simulation.Predict: asks for a non-zero mass, as do Simulation.Kick, Simulation.Correct, Simulation.Update, Simulation.Simulate and every lemma about a step. The source divides by `mass_` without a check, and a zero mass gives infinities that reals cannot represent.
- Simulation.LockNode: an out-of-range flat index is an out-of-bounds write in the source, so the model makes "index in range" the precondition. Besides `Sized(c)` (every per-point array has R·C entries), it is the only demand on the coordinates.
- Grid.IndexBijection: states that the map is into [0,R·C) and injective. Surjectivity is the separate lemma `Grid.IndexSurjective`.

=== FILE: cloth.dfy ===
/** The cloth object (src/cloth.cpp:15-63, 153-186): point positions, velocities,
    lock flags, texture coordinates and the fixed triangle index list, together
    with the construction constants. Construction lays the grid out flat, `LockNode`
    pins or frees one point, and `Update` advances the whole cloth by one step of
    the improved Euler method, leaving locked points where they are. */
module Simulation {
  import opened Vectors
  import opened Grid
  import opened Mesh
  import opened Forces

  /** A texture coordinate (glm::vec2). */
  datatype UV = UV(u: real, v: real)

  datatype Cloth = Cloth(params: Params, pos: seq<Vec3>, vel: seq<Vec3>, locked: seq<bool>,
                         uvs: seq<UV>, indices: seq<nat>, numTris: nat)

  /** Every per-point array has one entry per grid point. */
  predicate Sized(c: Cloth) {
    && ValidParams(c.params)
    && |c.pos| == PointCount(c.params)
    && |c.vel| == PointCount(c.params)
    && |c.locked| == PointCount(c.params)
    && |c.uvs| == PointCount(c.params)
  }

  /** A well-formed cloth: sized arrays, and the index list is the fixed
      triangulation of the grid. */
  predicate Valid(c: Cloth) {
    && Sized(c)
    && c.indices == TriangleIndices(c.params.ropes, c.params.perRope)
    && c.numTris == TriangleCount(c.params.ropes, c.params.perRope)
  }

  /** Where the constructor puts point i of rope j (src/cloth.cpp:33): `j` rest
      lengths along x and `i` rest lengths along -z from the anchor, in the plane
      y = startY. */
  function StartPosition(p: Params, startX: real, startY: real, zVal: real, j: nat, i: nat): (q: Vec3)
    ensures Sub(q, Vec3(startX, startY, zVal)) == Scale(Vec3(j as real, 0.0, -(i as real)), p.restLength)
  {
    Vec3(startX + j as real * p.restLength, startY, zVal - i as real * p.restLength)
  }

  /** The texture coordinate of point i of rope j (src/cloth.cpp:39): both
      coordinates are divided by the number of points per rope. */
  function StartUV(p: Params, j: nat, i: nat): (t: UV)
    requires p.perRope >= 1
    ensures t.u * p.perRope as real == j as real && t.v * p.perRope as real == i as real
    ensures i < p.perRope ==> 0.0 <= t.v < 1.0
  {
    UV(j as real / p.perRope as real, i as real / p.perRope as real)
  }

  /** The constructor's placement loop (src/cloth.cpp:30-41) over flat indices:
      slot k holds point k % C of rope k / C. */
  function Layout(p: Params, startX: real, startY: real, zVal: real): (pos: seq<Vec3>)
    requires ValidParams(p)
    ensures |pos| == PointCount(p)
  {
    seq(PointCount(p), k requires 0 <= k < PointCount(p) =>
      StartPosition(p, startX, startY, zVal, k / p.perRope, k % p.perRope))
  }

  /** Neighbouring points start one rest length apart. These are the first `diff`
      vectors of the two spring loops: point i minus point i + 1 of a rope is
      (0, 0, L), and point i of rope j minus point i of rope j + 1 is (-L, 0, 0). */
  lemma StartSpacing(p: Params, startX: real, startY: real, zVal: real, j: nat, i: nat)
    ensures Sub(StartPosition(p, startX, startY, zVal, j, i), StartPosition(p, startX, startY, zVal, j, i + 1))
            == Vec3(0.0, 0.0, p.restLength)
    ensures Sub(StartPosition(p, startX, startY, zVal, j, i), StartPosition(p, startX, startY, zVal, j + 1, i))
            == Vec3(-p.restLength, 0.0, 0.0)
  {
    assert (i + 1) as real * p.restLength == i as real * p.restLength + p.restLength;
    assert (j + 1) as real * p.restLength == j as real * p.restLength + p.restLength;
  }

  function UVLayout(p: Params): (uvs: seq<UV>)
    requires ValidParams(p)
    ensures |uvs| == PointCount(p)
  {
    seq(PointCount(p), k requires 0 <= k < PointCount(p) => StartUV(p, k / p.perRope, k % p.perRope))
  }

  /** Point i of rope j is stored at flat index j·C + i. */
  lemma LayoutAt(p: Params, startX: real, startY: real, zVal: real, j: nat, i: nat)
    requires ValidParams(p)
    requires j < p.ropes && i < p.perRope
    ensures Index(p.perRope, j, i) < PointCount(p)
    ensures Layout(p, startX, startY, zVal)[Index(p.perRope, j, i)] == StartPosition(p, startX, startY, zVal, j, i)
    ensures UVLayout(p)[Index(p.perRope, j, i)] == StartUV(p, j, i)
  {
    IndexInRange(p.ropes, p.perRope, j, i);
    IndexRecover(p.perRope, j, i);
  }

  /** The constructor (src/cloth.cpp:15-60): the point stored at flat index j·C + i
      is point i of rope j, placed at `StartPosition` with texture coordinate
      `StartUV`; every point starts at rest and unlocked, and the index list is the
      grid's triangulation. */
  function Init(p: Params, startX: real, startY: real, zVal: real): (c: Cloth)
    requires ValidParams(p)
    ensures Valid(c) && c.params == p
    ensures forall j: nat, i: nat {:trigger Index(p.perRope, j, i)} :: j < p.ropes && i < p.perRope ==>
              && Index(p.perRope, j, i) < PointCount(p)
              && c.pos[Index(p.perRope, j, i)] == StartPosition(p, startX, startY, zVal, j, i)
              && c.uvs[Index(p.perRope, j, i)] == StartUV(p, j, i)
    ensures forall k :: 0 <= k < PointCount(p) ==> c.vel[k] == Zero && !c.locked[k]
  {
    var n := PointCount(p);
    var c := Cloth(p, Layout(p, startX, startY, zVal), seq(n, _ => Zero), seq(n, _ => false), UVLayout(p),
                   TriangleIndices(p.ropes, p.perRope), TriangleCount(p.ropes, p.perRope));
    assert forall j: nat, i: nat {:trigger Index(p.perRope, j, i)} :: j < p.ropes && i < p.perRope ==>
              && Index(p.perRope, j, i) < PointCount(p)
              && c.pos[Index(p.perRope, j, i)] == StartPosition(p, startX, startY, zVal, j, i)
              && c.uvs[Index(p.perRope, j, i)] == StartUV(p, j, i) by {
      forall j: nat, i: nat | j < p.ropes && i < p.perRope
        ensures Index(p.perRope, j, i) < PointCount(p)
        ensures c.pos[Index(p.perRope, j, i)] == StartPosition(p, startX, startY, zVal, j, i)
        ensures c.uvs[Index(p.perRope, j, i)] == StartUV(p, j, i)
      {
        LayoutAt(p, startX, startY, zVal, j, i);
      }
    }
    c
  }

  /** `LockNode(x, y, lock)` (src/cloth.cpp:153-156) writes flag x·C + y and nothing
      else. The source checks neither coordinate, so the only demand on the caller
      is that the flat index is in range. */
  function LockNode(c: Cloth, x: int, y: int, lock: bool): (r: Cloth)
    requires Sized(c)
    requires 0 <= x * c.params.perRope + y < |c.locked|
    ensures Sized(r) && r.params == c.params
    ensures Valid(c) ==> Valid(r)
    ensures r.locked[x * c.params.perRope + y] == lock
    ensures forall k :: 0 <= k < |c.locked| && k != x * c.params.perRope + y ==> r.locked[k] == c.locked[k]
    ensures r.pos == c.pos && r.vel == c.vel
    ensures r.uvs == c.uvs && r.indices == c.indices && r.numTris == c.numTris
  {
    c.(locked := c.locked[x * c.params.perRope + y := lock])
  }

  /** With coordinates inside the grid, `LockNode(x, y, b)` sets the flag of point y
      of rope x and of no other grid point. */
  lemma LockNodeAtCoordinates(c: Cloth, x: nat, y: nat, lock: bool)
    requires Sized(c)
    requires x < c.params.ropes && y < c.params.perRope
    ensures 0 <= x * c.params.perRope + y < |c.locked|
    ensures LockNode(c, x, y, lock).locked[Index(c.params.perRope, x, y)] == lock
    ensures forall j: nat, i: nat :: j < c.params.ropes && i < c.params.perRope && (j, i) != (x, y) ==>
              && Index(c.params.perRope, j, i) < |c.locked|
              && LockNode(c, x, y, lock).locked[Index(c.params.perRope, j, i)] == c.locked[Index(c.params.perRope, j, i)]
  {
    var C := c.params.perRope;
    IndexInRange(c.params.ropes, C, x, y);
    forall j: nat, i: nat | j < c.params.ropes && i < C && (j, i) != (x, y)
      ensures Index(C, j, i) < |c.locked|
      ensures LockNode(c, x, y, lock).locked[Index(C, j, i)] == c.locked[Index(C, j, i)]
    {
      IndexInRange(c.params.ropes, C, j, i);
      IndexRecover(C, j, i);
      IndexRecover(C, x, y);
    }
  }

  /** A column one past the last aliases into the next rope: `LockNode(x, C, b)`
      sets the flag of point 0 of rope x + 1. */
  lemma LockNodeColumnOverflow(c: Cloth, x: nat, lock: bool)
    requires Sized(c)
    requires x + 1 < c.params.ropes
    ensures Index(c.params.perRope, x + 1, 0) == x * c.params.perRope + c.params.perRope
    ensures Index(c.params.perRope, x + 1, 0) < |c.locked|
    ensures LockNode(c, x, c.params.perRope, lock).locked[Index(c.params.perRope, x + 1, 0)] == lock
  {
    IndexInRange(c.params.ropes, c.params.perRope, x + 1, 0);
    assert (x + 1) * c.params.perRope == x * c.params.perRope + c.params.perRope;
  }

  /** Repeating `LockNode` with the same arguments has no further effect. */
  lemma LockNodeIdempotent(c: Cloth, x: int, y: int, lock: bool)
    requires Sized(c)
    requires 0 <= x * c.params.perRope + y < |c.locked|
    ensures LockNode(LockNode(c, x, y, lock), x, y, lock) == LockNode(c, x, y, lock)
  {
  }

  /** Locking a free point and then unlocking it gives back the original cloth, so
      the point takes part in the next step exactly as before. */
  lemma LockUnlockRestores(c: Cloth, x: int, y: int)
    requires Sized(c)
    requires 0 <= x * c.params.perRope + y < |c.locked|
    requires !c.locked[x * c.params.perRope + y]
    ensures LockNode(LockNode(c, x, y, true), x, y, false) == c
  {
    var r := LockNode(LockNode(c, x, y, true), x, y, false);
    assert r.locked == c.locked;
  }

  /** One velocity half-kick, `force * 0.5f * dt / mass_` (src/cloth.cpp:169, 178). */
  function Kick(force: Vec3, dt: real, mass: real): (dv: Vec3)
    requires mass != 0.0
    ensures Scale(dv, 2.0 * mass) == Scale(force, dt)
  {
    Scale(force, 0.5 * dt / mass)
  }

  /** The first loop of `Update` (src/cloth.cpp:163-171): with the forces of the
      current state, every unlocked point takes a half-kick and then moves with its
      new velocity; locked points are skipped. */
  function Predict(geo: Geometry, c: Cloth, dt: real): (r: Cloth)
    requires Sized(c) && c.params.mass != 0.0
    ensures Sized(r)
    ensures r.params == c.params && r.locked == c.locked && r.uvs == c.uvs
    ensures r.indices == c.indices && r.numTris == c.numTris
    ensures forall k :: 0 <= k < |c.locked| && c.locked[k] ==> r.pos[k] == c.pos[k] && r.vel[k] == c.vel[k]
  {
    var n := PointCount(c.params);
    var forces := CalcForces(geo, c.params, c.pos, c.vel);
    var vel := seq(n, k requires 0 <= k < n =>
      if c.locked[k] then c.vel[k] else Add(c.vel[k], Kick(forces[k], dt, c.params.mass)));
    var pos := seq(n, k requires 0 <= k < n =>
      if c.locked[k] then c.pos[k] else Add(c.pos[k], Scale(vel[k], dt)));
    c.(pos := pos, vel := vel)
  }

  /** The second loop of `Update` (src/cloth.cpp:173-179): with the forces of the
      predicted state, every unlocked point takes a second half-kick. */
  function Correct(geo: Geometry, c: Cloth, dt: real): (r: Cloth)
    requires Sized(c) && c.params.mass != 0.0
    ensures Sized(r)
    ensures r.params == c.params && r.locked == c.locked && r.uvs == c.uvs
    ensures r.indices == c.indices && r.numTris == c.numTris && r.pos == c.pos
    ensures forall k :: 0 <= k < |c.locked| && c.locked[k] ==> r.vel[k] == c.vel[k]
  {
    var n := PointCount(c.params);
    var forces := CalcForces(geo, c.params, c.pos, c.vel);
    c.(vel := seq(n, k requires 0 <= k < n =>
      if c.locked[k] then c.vel[k] else Add(c.vel[k], Kick(forces[k], dt, c.params.mass))))
  }

  /** `Update(dt)` (src/cloth.cpp:161-182). A locked point keeps its position and
      velocity, and nothing but positions and velocities changes; `UnlockedStep`
      gives what happens to an unlocked point. */
  function Update(geo: Geometry, c: Cloth, dt: real): (r: Cloth)
    requires Sized(c) && c.params.mass != 0.0
    ensures Sized(r)
    ensures r.params == c.params && r.locked == c.locked && r.uvs == c.uvs
    ensures r.indices == c.indices && r.numTris == c.numTris
    ensures forall k :: 0 <= k < |c.locked| && c.locked[k] ==> r.pos[k] == c.pos[k] && r.vel[k] == c.vel[k]
  {
    Correct(geo, Predict(geo, c, dt), dt)
  }

  /** One step of an unlocked point: with F0 the forces of the current state and
      F1 those of the predicted state, it ends with velocity v + F0·dt/(2m) +
      F1·dt/(2m) and position p + (v + F0·dt/(2m))·dt. */
  lemma UnlockedStep(geo: Geometry, c: Cloth, dt: real, k: nat)
    requires Sized(c) && c.params.mass != 0.0
    requires k < |c.locked| && !c.locked[k]
    ensures var h := dt / (2.0 * c.params.mass);
            var f0 := CalcForces(geo, c.params, c.pos, c.vel);
            var mid := Predict(geo, c, dt);
            var f1 := CalcForces(geo, c.params, mid.pos, mid.vel);
            && Update(geo, c, dt).vel[k] == Add(Add(c.vel[k], Scale(f0[k], h)), Scale(f1[k], h))
            && Update(geo, c, dt).pos[k] == Add(c.pos[k], Scale(Add(c.vel[k], Scale(f0[k], h)), dt))
  {
    HalfStepFactor(dt, c.params.mass);
  }

  lemma HalfStepFactor(dt: real, m: real)
    requires m != 0.0
    ensures 0.5 * dt / m == dt / (2.0 * m)
  {
  }

  lemma ZeroHalfKick(m: real)
    requires m != 0.0
    ensures 0.0 / (2.0 * m) == 0.0
  {
  }

  /** A step of length zero changes nothing, whatever the forces. */
  lemma ZeroStepIsIdentity(geo: Geometry, c: Cloth)
    requires Sized(c) && c.params.mass != 0.0
    ensures Update(geo, c, 0.0) == c
  {
    var r := Update(geo, c, 0.0);
    var f0 := CalcForces(geo, c.params, c.pos, c.vel);
    var mid := Predict(geo, c, 0.0);
    var f1 := CalcForces(geo, c.params, mid.pos, mid.vel);
    forall k | 0 <= k < |c.locked| && !c.locked[k]
      ensures r.vel[k] == c.vel[k] && r.pos[k] == c.pos[k]
    {
      UnlockedStep(geo, c, 0.0, k);
      ZeroHalfKick(c.params.mass);
      ScaleByZero(f0[k]);
      ScaleByZero(f1[k]);
      ScaleByZero(Add(c.vel[k], Zero));
    }
    assert r.vel == c.vel;
    assert r.pos == c.pos;
  }

  /** A cloth whose every point is locked does not move. */
  lemma AllLockedIsFrozen(geo: Geometry, c: Cloth, dt: real)
    requires Sized(c) && c.params.mass != 0.0
    requires forall k :: 0 <= k < |c.locked| ==> c.locked[k]
    ensures Update(geo, c, dt) == c
  {
    var r := Update(geo, c, dt);
    assert r.vel == c.vel;
    assert r.pos == c.pos;
  }

  /** The render loop's repeated `Update` calls, one per entry of `dts`. */
  function Simulate(geo: Geometry, c: Cloth, dts: seq<real>): (r: Cloth)
    requires Sized(c) && c.params.mass != 0.0
    ensures Sized(r) && r.params == c.params && r.locked == c.locked && r.uvs == c.uvs
    ensures r.indices == c.indices && r.numTris == c.numTris
    decreases |dts|
  {
    if |dts| == 0 then c else Simulate(geo, Update(geo, c, dts[0]), dts[1..])
  }

  /** A locked point keeps its position and velocity through any sequence of steps,
      whatever the forces its neighbours exert on it. */
  lemma {:induction false} LockedPointStaysPut(geo: Geometry, c: Cloth, dts: seq<real>, k: nat)
    requires Sized(c) && c.params.mass != 0.0
    requires k < |c.locked| && c.locked[k]
    ensures Simulate(geo, c, dts).pos[k] == c.pos[k]
    ensures Simulate(geo, c, dts).vel[k] == c.vel[k]
    decreases |dts|
  {
    if |dts| > 0 {
      LockedPointStaysPut(geo, Update(geo, c, dts[0]), dts[1..], k);
    }
  }

  /** Moving every point by the same vector leaves every spring's length alone. */
  lemma TranslationKeepsRest(geo: Geometry, p: Params, pos: seq<Vec3>, moved: seq<Vec3>, w: Vec3)
    requires ValidParams(p)
    requires |moved| == |pos|
    requires forall k :: 0 <= k < |pos| ==> moved[k] == Add(pos[k], w)
    requires SpringsAtRest(geo, p, pos)
    ensures SpringsAtRest(geo, p, moved)
  {
    forall e: Springs.Edge | (e in Springs.VerticalEdges(p.ropes, p.perRope) || e in Springs.HorizontalEdges(p.ropes, p.perRope))
      && e.a < |moved| && e.b < |moved|
      ensures geo.length(Sub(moved[e.a], moved[e.b])) == p.restLength
    {
      assert Sub(moved[e.a], moved[e.b]) == Sub(pos[e.a], pos[e.b]);
    }
  }

  /** The closed form of one step under gravity alone, from rest at `pk`. */
  lemma FallArithmetic(pk: Vec3, dt: real, m: real)
    requires m != 0.0
    ensures Add(Add(Zero, Scale(Gravity, dt / (2.0 * m))), Scale(Gravity, dt / (2.0 * m))) == Scale(Gravity, dt / m)
    ensures Add(pk, Scale(Add(Zero, Scale(Gravity, dt / (2.0 * m))), dt)) == Add(pk, Scale(Gravity, dt * dt / (2.0 * m)))
  {
    var h := dt / (2.0 * m);
    assert h + h == dt / m;
    assert h * dt == dt * dt / (2.0 * m);
    assert Add(Zero, Scale(Gravity, h)) == Scale(Gravity, h);
    ScaleScale(Gravity, h, dt);
  }

  /** From rest with the springs at their rest length, the first half of a step
      (`Predict`) gives every point the same velocity w = g·dt/(2m) and
      moves it by w·dt: a rigid translation. */
  lemma PredictFromRest(geo: Geometry, c: Cloth, dt: real)
    requires Sized(c) && c.params.mass != 0.0
    requires forall k :: 0 <= k < |c.locked| ==> !c.locked[k] && c.vel[k] == Zero
    requires SpringsAtRest(geo, c.params, c.pos)
    ensures var w := Scale(Gravity, dt / (2.0 * c.params.mass));
            var mid := Predict(geo, c, dt);
            forall k :: 0 <= k < |c.locked| ==> mid.vel[k] == w && mid.pos[k] == Add(c.pos[k], Scale(w, dt))
  {
    EquilibriumForces(geo, c.params, c.pos, c.vel, Zero);
    forall k | 0 <= k < |c.locked|
      ensures var w := Scale(Gravity, dt / (2.0 * c.params.mass));
              Predict(geo, c, dt).vel[k] == w && Predict(geo, c, dt).pos[k] == Add(c.pos[k], Scale(w, dt))
    {
      PredictedPoint(geo, c, dt, k);
    }
  }

  /** The first half of a step for an unlocked point: velocity v + F0·dt/(2m), then
      position p plus that velocity times dt. */
  lemma PredictedPoint(geo: Geometry, c: Cloth, dt: real, k: nat)
    requires Sized(c) && c.params.mass != 0.0
    requires k < |c.locked| && !c.locked[k]
    ensures var f0 := CalcForces(geo, c.params, c.pos, c.vel);
            var mid := Predict(geo, c, dt);
            && mid.vel[k] == Add(c.vel[k], Scale(f0[k], dt / (2.0 * c.params.mass)))
            && mid.pos[k] == Add(c.pos[k], Scale(mid.vel[k], dt))
  {
    HalfStepFactor(dt, c.params.mass);
  }

  /** Both force evaluations of a step from rest see gravity alone on every point. */
  lemma FallForces(geo: Geometry, c: Cloth, dt: real)
    requires Sized(c) && c.params.mass != 0.0
    requires c.params.dragCoef == 0.0
    requires forall k :: 0 <= k < |c.locked| ==> !c.locked[k] && c.vel[k] == Zero
    requires SpringsAtRest(geo, c.params, c.pos)
    ensures var mid := Predict(geo, c, dt);
            forall k :: 0 <= k < |c.locked| ==>
              CalcForces(geo, c.params, c.pos, c.vel)[k] == Gravity
              && CalcForces(geo, c.params, mid.pos, mid.vel)[k] == Gravity
  {
    var p := c.params;
    var w := Scale(Gravity, dt / (2.0 * p.mass));
    var mid := Predict(geo, c, dt);
    EquilibriumForces(geo, p, c.pos, c.vel, Zero);
    PredictFromRest(geo, c, dt);
    TranslationKeepsRest(geo, p, c.pos, mid.pos, Scale(w, dt));
    EquilibriumForces(geo, p, mid.pos, mid.vel, w);
  }

  /** A step from rest, with the springs at their rest length and no drag, is the
      step of `UnlockedStep` with both force fields F0 and F1 equal to gravity on
      every point. */
  lemma FallKicks(geo: Geometry, c: Cloth, dt: real) returns (f0: seq<Vec3>, f1: seq<Vec3>)
    requires Sized(c) && c.params.mass != 0.0
    requires c.params.dragCoef == 0.0
    requires forall k :: 0 <= k < |c.locked| ==> !c.locked[k] && c.vel[k] == Zero
    requires SpringsAtRest(geo, c.params, c.pos)
    ensures |f0| == |c.vel| && |f1| == |c.vel|
    ensures |Update(geo, c, dt).vel| == |c.vel| && |Update(geo, c, dt).pos| == |c.vel|
    ensures forall k :: 0 <= k < |c.vel| ==> f0[k] == Gravity && f1[k] == Gravity
    ensures forall k :: 0 <= k < |c.vel| ==>
              && Update(geo, c, dt).vel[k] == Add(Add(c.vel[k], Scale(f0[k], dt / (2.0 * c.params.mass))), Scale(f1[k], dt / (2.0 * c.params.mass)))
              && Update(geo, c, dt).pos[k] == Add(c.pos[k], Scale(Add(c.vel[k], Scale(f0[k], dt / (2.0 * c.params.mass))), dt))
  {
    var mid := Predict(geo, c, dt);
    f0 := CalcForces(geo, c.params, c.pos, c.vel);
    f1 := CalcForces(geo, c.params, mid.pos, mid.vel);
    FallForces(geo, c, dt);
    forall k | 0 <= k < |c.vel|
      ensures && Update(geo, c, dt).vel[k] == Add(Add(c.vel[k], Scale(f0[k], dt / (2.0 * c.params.mass))), Scale(f1[k], dt / (2.0 * c.params.mass)))
              && Update(geo, c, dt).pos[k] == Add(c.pos[k], Scale(Add(c.vel[k], Scale(f0[k], dt / (2.0 * c.params.mass))), dt))
    {
      UnlockedStep(geo, c, dt, k);
    }
  }

  /** Free fall: a free cloth at rest, with every spring at its rest length and no
      drag, moves as one body under gravity. After one step every point's velocity
      is g·dt/m and it has dropped by g·dt²/(2m): both half-kicks see gravity alone,
      because the predicted state is a rigid translation of the initial one. */
  lemma FreeFallFromRest(geo: Geometry, c: Cloth, dt: real)
    requires Sized(c) && c.params.mass != 0.0
    requires c.params.dragCoef == 0.0
    requires forall k :: 0 <= k < |c.locked| ==> !c.locked[k] && c.vel[k] == Zero
    requires SpringsAtRest(geo, c.params, c.pos)
    ensures var r := Update(geo, c, dt);
            forall k :: 0 <= k < |c.locked| ==>
              && r.vel[k] == Scale(Gravity, dt / c.params.mass)
              && r.pos[k] == Add(c.pos[k], Scale(Gravity, dt * dt / (2.0 * c.params.mass)))
  {
    var f0, f1 := FallKicks(geo, c, dt);
    forall k | 0 <= k < |c.locked|
      ensures Update(geo, c, dt).vel[k] == Scale(Gravity, dt / c.params.mass)
      ensures Update(geo, c, dt).pos[k] == Add(c.pos[k], Scale(Gravity, dt * dt / (2.0 * c.params.mass)))
    {
      FallArithmetic(c.pos[k], dt, c.params.mass);
    }
  }

  /** Two half-kicks of a total force add up to one kick of dt/m. */
  lemma MomentumArithmetic(total: Vec3, sv: Vec3, f: Vec3, dt: real, m: real)
    requires m != 0.0
    requires total == Add(Add(sv, Scale(f, dt / (2.0 * m))), Scale(f, dt / (2.0 * m)))
    ensures total == Add(sv, Scale(f, dt / m))
  {
    var h := dt / (2.0 * m);
    assert h + h == dt / m;
    assert f.x * h + f.x * h == f.x * (dt / m);
    assert f.y * h + f.y * h == f.y * (dt / m);
    assert f.z * h + f.z * h == f.z * (dt / m);
  }

  /** Velocities updated by two half-kicks whose forces both total `f` gain `f·dt/m`
      in total. */
  lemma KicksMomentum(v: seq<Vec3>, f0: seq<Vec3>, f1: seq<Vec3>, r: seq<Vec3>, f: Vec3, dt: real, m: real)
    requires m != 0.0
    requires |v| == |r| && |f0| == |r| && |f1| == |r|
    requires forall k :: 0 <= k < |r| ==>
               r[k] == Add(Add(v[k], Scale(f0[k], dt / (2.0 * m))), Scale(f1[k], dt / (2.0 * m)))
    requires Sum(f0) == f && Sum(f1) == f
    ensures Sum(r) == Add(Sum(v), Scale(f, dt / m))
  {
    SumKicks(v, f0, f1, r, dt / (2.0 * m));
    MomentumArithmetic(Sum(r), Sum(v), f, dt, m);
  }

  /** The change of total velocity that gravity alone causes over a step of `dt`:
      the total gravity on all R·C points, times dt/m. */
  function GravityImpulse(p: Params, dt: real): Vec3
    requires p.mass != 0.0
  {
    Scale(Scale(Gravity, PointCount(p) as real), dt / p.mass)
  }

  /** Without drag, both force evaluations of a step add up to the total gravity. */
  lemma BothForcesTotal(geo: Geometry, c: Cloth, dt: real)
    requires Sized(c) && c.params.mass != 0.0
    requires c.params.dragCoef == 0.0
    ensures var mid := Predict(geo, c, dt);
            && Sum(CalcForces(geo, c.params, c.pos, c.vel)) == Scale(Gravity, PointCount(c.params) as real)
            && Sum(CalcForces(geo, c.params, mid.pos, mid.vel)) == Scale(Gravity, PointCount(c.params) as real)
  {
    var mid := Predict(geo, c, dt);
    TotalForceWithoutDrag(geo, c.params, c.pos, c.vel);
    TotalForceWithoutDrag(geo, c.params, mid.pos, mid.vel);
  }

  /** With no drag and nothing locked, a step gives every point the velocity
      v + F0·h + F1·h, h = dt/(2m), where the force fields F0 and F1 of the two
      evaluations each total the gravity on all points. */
  lemma FreeKicks(geo: Geometry, c: Cloth, dt: real) returns (f0: seq<Vec3>, f1: seq<Vec3>)
    requires Sized(c) && c.params.mass != 0.0
    requires c.params.dragCoef == 0.0
    requires forall k :: 0 <= k < |c.locked| ==> !c.locked[k]
    ensures |f0| == |c.vel| && |f1| == |c.vel| && |Update(geo, c, dt).vel| == |c.vel|
    ensures Sum(f0) == Scale(Gravity, PointCount(c.params) as real)
    ensures Sum(f1) == Scale(Gravity, PointCount(c.params) as real)
    ensures forall k :: 0 <= k < |c.vel| ==>
              Update(geo, c, dt).vel[k] == Add(Add(c.vel[k], Scale(f0[k], dt / (2.0 * c.params.mass))), Scale(f1[k], dt / (2.0 * c.params.mass)))
  {
    var mid := Predict(geo, c, dt);
    f0 := CalcForces(geo, c.params, c.pos, c.vel);
    f1 := CalcForces(geo, c.params, mid.pos, mid.vel);
    BothForcesTotal(geo, c, dt);
    forall k | 0 <= k < |c.vel|
      ensures Update(geo, c, dt).vel[k] == Add(Add(c.vel[k], Scale(f0[k], dt / (2.0 * c.params.mass))), Scale(f1[k], dt / (2.0 * c.params.mass)))
    {
      UnlockedStep(geo, c, dt, k);
    }
  }

  /** Momentum: with no drag and no locked point, one step changes the total
      velocity by exactly the impulse of gravity on all points, g·R·C·dt/m; the
      spring forces of both evaluations cancel. */
  lemma MomentumWithoutDrag(geo: Geometry, c: Cloth, dt: real)
    requires Sized(c) && c.params.mass != 0.0
    requires c.params.dragCoef == 0.0
    requires forall k :: 0 <= k < |c.locked| ==> !c.locked[k]
    ensures Sum(Update(geo, c, dt).vel) == Add(Sum(c.vel), GravityImpulse(c.params, dt))
  {
    var f0, f1 := FreeKicks(geo, c, dt);
    KicksMomentum(c.vel, f0, f1, Update(geo, c, dt).vel, Scale(Gravity, PointCount(c.params) as real), dt, c.params.mass);
  }
}

=== FILE: forces.dfy ===
/** The force pass `calcForces` (src/cloth.cpp:223-306): gravity on every point,
    then the springs along the ropes, then the springs across them, then the
    aerodynamic drag of every cell's two triangles. Vector length and
    normalisation are supplied as uninterpreted functions (`Geometry`); everything
    else (differences, dot and cross products, scaling) is exact real arithmetic. */
module Forces {
  import opened Vectors
  import opened Grid
  import opened Springs

  /** glm::length and glm::normalize: no property of either is assumed. */
  datatype Geometry = Geometry(length: Vec3 -> real, normalize: Vec3 -> Vec3)

  /** The construction constants of a cloth (src/cloth.cpp:15-17): `ropes` ropes
      of `perRope` points each, spring stiffness `k`, damping `kv`, point mass,
      spring rest length and drag coefficient. */
  datatype Params = Params(ropes: nat, perRope: nat, k: real, kv: real, mass: real,
                           restLength: real, dragCoef: real)

  /** A grid with at least one rope of at least one point. */
  predicate ValidParams(p: Params) {
    p.ropes >= 1 && p.perRope >= 1
  }

  function PointCount(p: Params): nat {
    p.ropes * p.perRope
  }

  /** The force every point starts from (src/cloth.cpp:226). */
  const Gravity: Vec3 := Vec3(0.0, -0.1, 0.0)

  /** `air_res_`, set once to the zero vector (src/cloth.cpp:19). */
  const AirVelocity: Vec3 := Zero

  /** Hooke's law plus velocity damping along the spring, for a spring from a point
      at `pa` moving with `va` to a point at `pb` moving with `vb`
      (src/cloth.cpp:234-244). It vanishes at rest length when both ends move
      alike. */
  function SpringForce(geo: Geometry, p: Params, pa: Vec3, pb: Vec3, va: Vec3, vb: Vec3): (f: Vec3)
    ensures geo.length(Sub(pa, pb)) == p.restLength && va == vb ==> f == Zero
  {
    var diff := Sub(pa, pb);
    var stringForce := -p.k * (geo.length(diff) - p.restLength);
    var dir := geo.normalize(diff);
    var projFar := Dot(vb, dir);
    var projNear := Dot(va, dir);
    var dampForce := -p.kv * (projNear - projFar);
    Scale(dir, stringForce + dampForce)
  }

  /** A spring pushes and pulls only along its own direction `normalize(pa - pb)`. */
  lemma SpringForceAlongAxis(geo: Geometry, p: Params, pa: Vec3, pb: Vec3, va: Vec3, vb: Vec3)
    ensures Cross(SpringForce(geo, p, pa, pb, va, vb), geo.normalize(Sub(pa, pb))) == Zero
  {
  }

  /** The force of every spring of `es`, evaluated on one snapshot of the state. */
  function SpringForces(geo: Geometry, p: Params, pos: seq<Vec3>, vel: seq<Vec3>, es: seq<Edge>): (fs: seq<Vec3>)
    requires |pos| == |vel| && EdgesWithin(es, |pos|)
    ensures |fs| == |es|
  {
    seq(|es|, q requires 0 <= q < |es| =>
      SpringForce(geo, p, pos[es[q].a], pos[es[q].b], vel[es[q].a], vel[es[q].b]))
  }

  /** Both spring loops of `calcForces`, ropes first, on top of `forces`. */
  function ApplySprings(geo: Geometry, p: Params, pos: seq<Vec3>, vel: seq<Vec3>, forces: seq<Vec3>): (r: seq<Vec3>)
    requires ValidParams(p)
    requires |pos| == PointCount(p) && |vel| == PointCount(p) && |forces| == PointCount(p)
    ensures |r| == |forces|
  {
    SpringsWithinCloth(p.ropes, p.perRope);
    var along := VerticalEdges(p.ropes, p.perRope);
    var across := HorizontalEdges(p.ropes, p.perRope);
    var afterRopes := ApplyEdges(forces, along, SpringForces(geo, p, pos, vel, along));
    ApplyEdges(afterRopes, across, SpringForces(geo, p, pos, vel, across))
  }

  /** The drag on one triangle, already divided by three for sharing among its
      corners (src/cloth.cpp:282-286): relative speed times the velocity's component
      along the unnormalised face normal, times a per-triangle weight. It acts
      along the face normal and vanishes without drag or without motion. */
  function TriangleDrag(geo: Geometry, p: Params, avgVel: Vec3, normal: Vec3, weight: real): (res: Vec3)
    ensures Cross(res, geo.normalize(normal)) == Zero
  {
    var van := geo.length(avgVel) * Dot(avgVel, normal) * weight;
    Scale(Scale(geo.normalize(normal), -0.5 * p.dragCoef * van), 1.0 / 3.0)
  }

  /** A cell (j, i) whose four corners are points of the cloth. */
  predicate CellInside(p: Params, cell: (nat, nat)) {
    cell.0 + 1 < p.ropes && cell.1 + 1 < p.perRope
  }

  /** The four corners index1..index4 of cell (j, i) (src/cloth.cpp:274-277). */
  function Corners(p: Params, cell: (nat, nat)): (r: (nat, nat, nat, nat))
    requires CellInside(p, cell)
    ensures r.0 < PointCount(p) && r.1 < PointCount(p) && r.2 < PointCount(p) && r.3 < PointCount(p)
    ensures r.1 == r.0 + 1 && r.2 == r.0 + p.perRope && r.3 == r.2 + 1
  {
    var (j, i) := cell;
    IndexInRange(p.ropes, p.perRope, j + 1, i + 1);
    IndexInRange(p.ropes, p.perRope, j, i + 1);
    (Index(p.perRope, j, i), Index(p.perRope, j, i) + 1, Index(p.perRope, j + 1, i), Index(p.perRope, j + 1, i) + 1)
  }

  /** Drag of the cell's first triangle (src/cloth.cpp:280-286): the velocities of
      corners 1, 2, 3 averaged relative to the air, weight 0.5. */
  function FirstTriangleDrag(geo: Geometry, p: Params, pos: seq<Vec3>, vel: seq<Vec3>, cell: (nat, nat)): (res: Vec3)
    requires |pos| == PointCount(p) && |vel| == PointCount(p)
    requires CellInside(p, cell)
    ensures var (a, b, c, _) := Corners(p, cell);
            Cross(res, geo.normalize(Cross(Sub(pos[a], pos[b]), Sub(pos[c], pos[b])))) == Zero
  {
    var (index1, index2, index3, _) := Corners(p, cell);
    var avgVel := Sub(Scale(Add(Add(vel[index1], vel[index2]), vel[index3]), 1.0 / 3.0), AirVelocity);
    var normal := Cross(Sub(pos[index1], pos[index2]), Sub(pos[index3], pos[index2]));
    TriangleDrag(geo, p, avgVel, normal, 0.5)
  }

  /** Drag of the cell's second triangle (src/cloth.cpp:292-298): corner 2 and
      corner 4 twice averaged with no air subtraction, weight 0.75. */
  function SecondTriangleDrag(geo: Geometry, p: Params, pos: seq<Vec3>, vel: seq<Vec3>, cell: (nat, nat)): (res: Vec3)
    requires |pos| == PointCount(p) && |vel| == PointCount(p)
    requires CellInside(p, cell)
    ensures var (_, b, c, d) := Corners(p, cell);
            Cross(res, geo.normalize(Cross(Sub(pos[b], pos[d]), Sub(pos[c], pos[d])))) == Zero
  {
    var (_, index2, index3, index4) := Corners(p, cell);
    var avgVel := Scale(Add(Add(vel[index2], vel[index4]), vel[index4]), 1.0 / 3.0);
    var normal := Cross(Sub(pos[index2], pos[index4]), Sub(pos[index3], pos[index4]));
    TriangleDrag(geo, p, avgVel, normal, 0.75)
  }

  /** Add `res` to each of the three corners a, b, c, in that order. */
  function Share(forces: seq<Vec3>, a: nat, b: nat, c: nat, res: Vec3): (r: seq<Vec3>)
    requires a < |forces| && b < |forces| && c < |forces|
    ensures |r| == |forces|
  {
    AddAt(AddAt(AddAt(forces, a, res), b, res), c, res)
  }

  /** The drag pair of every cell of `cells`: first triangle, second triangle. Each
      depends only on the snapshot of positions and velocities, never on forces
      accumulated so far. */
  function DragForces(geo: Geometry, p: Params, pos: seq<Vec3>, vel: seq<Vec3>, cells: seq<(nat, nat)>): (ds: seq<(Vec3, Vec3)>)
    requires |pos| == PointCount(p) && |vel| == PointCount(p)
    requires forall c :: c in cells ==> CellInside(p, c)
    ensures |ds| == |cells|
  {
    seq(|cells|, q requires 0 <= q < |cells| =>
      (FirstTriangleDrag(geo, p, pos, vel, cells[q]), SecondTriangleDrag(geo, p, pos, vel, cells[q])))
  }

  /** The drag of cell (j, i) (src/cloth.cpp:287-301): the first triangle's share
      goes to corners 1, 2, 3, then the second triangle's to corners 2, 4, 3. */
  function CellDrag(p: Params, forces: seq<Vec3>, cell: (nat, nat), d: (Vec3, Vec3)): (r: seq<Vec3>)
    requires |forces| == PointCount(p)
    requires CellInside(p, cell)
    ensures |r| == |forces|
    ensures var (a, b, c, e) := Corners(p, cell);
            && r[a] == Add(forces[a], d.0)
            && r[b] == Add(Add(forces[b], d.0), d.1)
            && r[c] == Add(Add(forces[c], d.0), d.1)
            && r[e] == Add(forces[e], d.1)
    ensures var (a, b, c, e) := Corners(p, cell);
            forall n :: 0 <= n < |forces| && n != a && n != b && n != c && n != e ==> r[n] == forces[n]
  {
    var (index1, index2, index3, index4) := Corners(p, cell);
    Share(Share(forces, index1, index2, index3, d.0), index2, index4, index3, d.1)
  }

  /** The drag loop over `cells`, in order, cell q contributing the pair `ds[q]`. */
  function ApplyDrag(p: Params, forces: seq<Vec3>, cells: seq<(nat, nat)>, ds: seq<(Vec3, Vec3)>): (r: seq<Vec3>)
    requires |forces| == PointCount(p) && |ds| == |cells|
    requires forall c :: c in cells ==> CellInside(p, c)
    ensures |r| == |forces|
    decreases |cells|
  {
    if |cells| == 0 then forces
    else ApplyDrag(p, CellDrag(p, forces, cells[0], ds[0]), cells[1..], ds[1..])
  }

  /** The drag loop of `calcForces` (src/cloth.cpp:272-303): every cell (j, i) with
      j < R - 1 and i < C - 1, rope-major, on top of `forces`. */
  function DragPass(geo: Geometry, p: Params, pos: seq<Vec3>, vel: seq<Vec3>, forces: seq<Vec3>): (r: seq<Vec3>)
    requires ValidParams(p)
    requires |pos| == PointCount(p) && |vel| == PointCount(p) && |forces| == PointCount(p)
    ensures |r| == PointCount(p)
  {
    var cells := DragCells(p);
    ApplyDrag(p, forces, cells, DragForces(geo, p, pos, vel, cells))
  }

  /** The cells the drag loop visits, (0, 0) to (R-2, C-2) rope-major; each has
      its four corners in the cloth. */
  function DragCells(p: Params): (cells: seq<(nat, nat)>)
    requires ValidParams(p)
    ensures cells == Pairs(p.ropes - 1, p.perRope - 1)
    ensures forall c :: c in cells ==> CellInside(p, c)
  {
    var cells := Pairs(p.ropes - 1, p.perRope - 1);
    assert forall c :: c in cells ==> CellInside(p, c) by {
      forall c | c in cells
        ensures CellInside(p, c)
      {
        PairsMembership(p.ropes - 1, p.perRope - 1, c);
      }
    }
    cells
  }

  /** The two triangle drags of every cell, added up. */
  function DragTotal(ds: seq<(Vec3, Vec3)>): Vec3 {
    if |ds| == 0 then Zero else Add(Add(ds[0].0, ds[0].1), DragTotal(ds[1..]))
  }

  /** A cell hands each triangle's share to three corners, so the total force
      rises by three times the sum of the cell's two drags. */
  lemma CellDragTotal(p: Params, forces: seq<Vec3>, cell: (nat, nat), d: (Vec3, Vec3))
    requires |forces| == PointCount(p)
    requires CellInside(p, cell)
    ensures Sum(CellDrag(p, forces, cell, d)) == Add(Sum(forces), Scale(Add(d.0, d.1), 3.0))
  {
    var (a, b, c, e) := Corners(p, cell);
    var s1 := AddAt(forces, a, d.0);
    var s2 := AddAt(s1, b, d.0);
    var s3 := AddAt(s2, c, d.0);
    var s4 := AddAt(s3, b, d.1);
    var s5 := AddAt(s4, e, d.1);
    SumAddAt(forces, a, d.0);
    SumAddAt(s1, b, d.0);
    SumAddAt(s2, c, d.0);
    SumAddAt(s3, b, d.1);
    SumAddAt(s4, e, d.1);
    SumAddAt(s5, c, d.1);
    assert CellDrag(p, forces, cell, d) == AddAt(s5, c, d.1);
  }

  /** The drag loop raises the total force by three times the sum of all the
      triangle drags it applies. */
  lemma {:induction false} ApplyDragTotal(p: Params, forces: seq<Vec3>, cells: seq<(nat, nat)>, ds: seq<(Vec3, Vec3)>)
    requires |forces| == PointCount(p) && |ds| == |cells|
    requires forall c :: c in cells ==> CellInside(p, c)
    ensures Sum(ApplyDrag(p, forces, cells, ds)) == Add(Sum(forces), Scale(DragTotal(ds), 3.0))
    decreases |cells|
  {
    if |cells| > 0 {
      var next := CellDrag(p, forces, cells[0], ds[0]);
      assert ApplyDrag(p, forces, cells, ds) == ApplyDrag(p, next, cells[1..], ds[1..]);
      CellDragTotal(p, forces, cells[0], ds[0]);
      ApplyDragTotal(p, next, cells[1..], ds[1..]);
      AddScaled(Sum(forces), Add(ds[0].0, ds[0].1), DragTotal(ds[1..]), 3.0);
    }
  }

  /** The whole drag loop of `calcForces` adds three times the drag of every
      triangle of the cloth to the total force. */
  lemma DragPassTotal(geo: Geometry, p: Params, pos: seq<Vec3>, vel: seq<Vec3>, forces: seq<Vec3>)
    requires ValidParams(p)
    requires |pos| == PointCount(p) && |vel| == PointCount(p) && |forces| == PointCount(p)
    ensures Sum(DragPass(geo, p, pos, vel, forces))
            == Add(Sum(forces), Scale(DragTotal(DragForces(geo, p, pos, vel, DragCells(p))), 3.0))
  {
    var cells := DragCells(p);
    ApplyDragTotal(p, forces, cells, DragForces(geo, p, pos, vel, cells));
  }

  /** Gravity on every point: the forces `calcForces` starts from (src/cloth.cpp:224-227). */
  function GravityField(p: Params): (g: seq<Vec3>)
    ensures |g| == PointCount(p)
    ensures forall k :: 0 <= k < |g| ==> g[k] == Gravity
  {
    seq(PointCount(p), _ => Gravity)
  }

  /** The net force on every point for one snapshot of positions and velocities. */
  function CalcForces(geo: Geometry, p: Params, pos: seq<Vec3>, vel: seq<Vec3>): (r: seq<Vec3>)
    requires ValidParams(p)
    requires |pos| == PointCount(p) && |vel| == PointCount(p)
    ensures |r| == PointCount(p)
  {
    DragPass(geo, p, pos, vel, ApplySprings(geo, p, pos, vel, GravityField(p)))
  }

  /** Both spring families together leave the total force unchanged. */
  lemma SpringPassConservesTotal(geo: Geometry, p: Params, pos: seq<Vec3>, vel: seq<Vec3>, forces: seq<Vec3>)
    requires ValidParams(p)
    requires |pos| == PointCount(p) && |vel| == PointCount(p) && |forces| == PointCount(p)
    ensures Sum(ApplySprings(geo, p, pos, vel, forces)) == Sum(forces)
  {
    SpringsWithinCloth(p.ropes, p.perRope);
    var along := VerticalEdges(p.ropes, p.perRope);
    var across := HorizontalEdges(p.ropes, p.perRope);
    var afterRopes := ApplyEdges(forces, along, SpringForces(geo, p, pos, vel, along));
    SpringsCancel(forces, along, SpringForces(geo, p, pos, vel, along));
    SpringsCancel(afterRopes, across, SpringForces(geo, p, pos, vel, across));
  }

  /** Every drag pair of `ds` is zero on both triangles. */
  predicate NoDrag(ds: seq<(Vec3, Vec3)>) {
    forall q :: 0 <= q < |ds| ==> ds[q] == (Zero, Zero)
  }

  /** Cells that exert no drag leave every force as it was. */
  lemma {:induction false} ZeroDragNoChange(p: Params, forces: seq<Vec3>, cells: seq<(nat, nat)>, ds: seq<(Vec3, Vec3)>)
    requires |forces| == PointCount(p) && |ds| == |cells|
    requires forall c :: c in cells ==> CellInside(p, c)
    requires NoDrag(ds)
    ensures ApplyDrag(p, forces, cells, ds) == forces
    decreases |cells|
  {
    if |cells| > 0 {
      assert cells[0] in cells;
      var (index1, index2, index3, index4) := Corners(p, cells[0]);
      ShareZero(forces, index1, index2, index3);
      ShareZero(forces, index2, index4, index3);
      ZeroDragNoChange(p, forces, cells[1..], ds[1..]);
    }
  }

  /** A triangle contributes no drag when the drag coefficient is zero or when the
      velocity it averages is zero. */
  lemma TriangleDragVanishes(geo: Geometry, p: Params, avgVel: Vec3, normal: Vec3, weight: real)
    requires p.dragCoef == 0.0 || avgVel == Zero
    ensures TriangleDrag(geo, p, avgVel, normal, weight) == Zero
  {
    var van := geo.length(avgVel) * Dot(avgVel, normal) * weight;
    assert -0.5 * p.dragCoef * van == 0.0;
  }

  lemma ShareZero(forces: seq<Vec3>, a: nat, b: nat, c: nat)
    requires a < |forces| && b < |forces| && c < |forces|
    ensures Share(forces, a, b, c, Zero) == forces
  {
    AddAtZero(forces, a);
    AddAtZero(forces, b);
    AddAtZero(forces, c);
  }

  /** No cell exerts drag when the coefficient is zero, or when every point is at rest. */
  lemma DragVanishes(geo: Geometry, p: Params, pos: seq<Vec3>, vel: seq<Vec3>, cells: seq<(nat, nat)>)
    requires |pos| == PointCount(p) && |vel| == PointCount(p)
    requires forall c :: c in cells ==> CellInside(p, c)
    requires p.dragCoef == 0.0 || forall k :: 0 <= k < |vel| ==> vel[k] == Zero
    ensures NoDrag(DragForces(geo, p, pos, vel, cells))
  {
    forall q | 0 <= q < |cells|
      ensures DragForces(geo, p, pos, vel, cells)[q] == (Zero, Zero)
    {
      var cell := cells[q];
      assert cell in cells;
      var (index1, index2, index3, index4) := Corners(p, cell);
      var avg1 := Sub(Scale(Add(Add(vel[index1], vel[index2]), vel[index3]), 1.0 / 3.0), AirVelocity);
      var normal1 := Cross(Sub(pos[index1], pos[index2]), Sub(pos[index3], pos[index2]));
      TriangleDragVanishes(geo, p, avg1, normal1, 0.5);
      var avg2 := Scale(Add(Add(vel[index2], vel[index4]), vel[index4]), 1.0 / 3.0);
      var normal2 := Cross(Sub(pos[index2], pos[index4]), Sub(pos[index3], pos[index4]));
      TriangleDragVanishes(geo, p, avg2, normal2, 0.75);
    }
  }

  /** When no cell exerts drag, the net forces are gravity plus the springs. */
  lemma NoDragForces(geo: Geometry, p: Params, pos: seq<Vec3>, vel: seq<Vec3>)
    requires ValidParams(p)
    requires |pos| == PointCount(p) && |vel| == PointCount(p)
    requires p.dragCoef == 0.0 || forall k :: 0 <= k < |vel| ==> vel[k] == Zero
    ensures CalcForces(geo, p, pos, vel) == ApplySprings(geo, p, pos, vel, GravityField(p))
  {
    DragPassVanishes(geo, p, pos, vel, ApplySprings(geo, p, pos, vel, GravityField(p)));
  }

  /** The whole drag loop leaves the forces alone when no cell exerts drag. */
  lemma DragPassVanishes(geo: Geometry, p: Params, pos: seq<Vec3>, vel: seq<Vec3>, forces: seq<Vec3>)
    requires ValidParams(p)
    requires |pos| == PointCount(p) && |vel| == PointCount(p) && |forces| == PointCount(p)
    requires p.dragCoef == 0.0 || forall k :: 0 <= k < |vel| ==> vel[k] == Zero
    ensures DragPass(geo, p, pos, vel, forces) == forces
  {
    var cells := DragCells(p);
    DragVanishes(geo, p, pos, vel, cells);
    ZeroDragNoChange(p, forces, cells, DragForces(geo, p, pos, vel, cells));
  }

  /** Without drag the forces of one evaluation add up to gravity on every point:
      the spring contributions cancel pairwise whatever the geometry. */
  lemma TotalForceWithoutDrag(geo: Geometry, p: Params, pos: seq<Vec3>, vel: seq<Vec3>)
    requires ValidParams(p)
    requires |pos| == PointCount(p) && |vel| == PointCount(p)
    requires p.dragCoef == 0.0
    ensures Sum(CalcForces(geo, p, pos, vel)) == Scale(Gravity, PointCount(p) as real)
  {
    NoDragForces(geo, p, pos, vel);
    SpringPassConservesTotal(geo, p, pos, vel, GravityField(p));
    SumConstant(GravityField(p), Gravity);
  }

  /** Every spring of either family is exactly at its rest length. */
  ghost predicate SpringsAtRest(geo: Geometry, p: Params, pos: seq<Vec3>)
    requires ValidParams(p)
  {
    forall e ::
      ((e in VerticalEdges(p.ropes, p.perRope) || e in HorizontalEdges(p.ropes, p.perRope)) && e.a < |pos| && e.b < |pos|)
      ==> geo.length(Sub(pos[e.a], pos[e.b])) == p.restLength
  }

  /** The springs add nothing to the total force: it is gravity on every point
      plus three times the drag of every triangle. */
  lemma CalcForcesTotal(geo: Geometry, p: Params, pos: seq<Vec3>, vel: seq<Vec3>)
    requires ValidParams(p)
    requires |pos| == PointCount(p) && |vel| == PointCount(p)
    ensures Sum(CalcForces(geo, p, pos, vel))
            == Add(Scale(Gravity, PointCount(p) as real), Scale(DragTotal(DragForces(geo, p, pos, vel, DragCells(p))), 3.0))
  {
    var springs := ApplySprings(geo, p, pos, vel, GravityField(p));
    DragPassTotal(geo, p, pos, vel, springs);
    SpringPassConservesTotal(geo, p, pos, vel, GravityField(p));
    SumConstant(GravityField(p), Gravity);
  }

  lemma {:induction false} RestingFamilyIsSlack(geo: Geometry, p: Params, pos: seq<Vec3>, vel: seq<Vec3>, es: seq<Edge>, u: Vec3)
    requires |pos| == |vel| && EdgesWithin(es, |pos|)
    requires forall k :: 0 <= k < |vel| ==> vel[k] == u
    requires forall q :: 0 <= q < |es| ==> geo.length(Sub(pos[es[q].a], pos[es[q].b])) == p.restLength
    ensures forall q :: 0 <= q < |es| ==> SpringForces(geo, p, pos, vel, es)[q] == Zero
  {
    forall q | 0 <= q < |es|
      ensures SpringForces(geo, p, pos, vel, es)[q] == Zero
    {
      // SpringForce's own contract: rest length and a shared velocity give no force.
      assert vel[es[q].a] == u && vel[es[q].b] == u;
    }
  }

  /** Springs all at their rest length, between points that share one velocity,
      leave any accumulated forces as they were. */
  lemma RestingSpringsNoChange(geo: Geometry, p: Params, pos: seq<Vec3>, vel: seq<Vec3>, u: Vec3, forces: seq<Vec3>)
    requires ValidParams(p)
    requires |pos| == PointCount(p) && |vel| == PointCount(p) && |forces| == PointCount(p)
    requires SpringsAtRest(geo, p, pos)
    requires forall k :: 0 <= k < |vel| ==> vel[k] == u
    ensures ApplySprings(geo, p, pos, vel, forces) == forces
  {
    SpringsWithinCloth(p.ropes, p.perRope);
    var along := VerticalEdges(p.ropes, p.perRope);
    var across := HorizontalEdges(p.ropes, p.perRope);
    forall q | 0 <= q < |along|
      ensures geo.length(Sub(pos[along[q].a], pos[along[q].b])) == p.restLength
    {
      assert along[q] in along;
    }
    forall q | 0 <= q < |across|
      ensures geo.length(Sub(pos[across[q].a], pos[across[q].b])) == p.restLength
    {
      assert across[q] in across;
    }
    RestingFamilyIsSlack(geo, p, pos, vel, along, u);
    RestingFamilyIsSlack(geo, p, pos, vel, across, u);
    SlackSpringsNoChange(forces, along, SpringForces(geo, p, pos, vel, along));
    SlackSpringsNoChange(forces, across, SpringForces(geo, p, pos, vel, across));
  }

  /** Equilibrium: when every spring is at its rest length and all points share one
      velocity (zero, or any velocity when there is no drag), the only force left
      on each point is gravity. */
  lemma EquilibriumForces(geo: Geometry, p: Params, pos: seq<Vec3>, vel: seq<Vec3>, u: Vec3)
    requires ValidParams(p)
    requires |pos| == PointCount(p) && |vel| == PointCount(p)
    requires SpringsAtRest(geo, p, pos)
    requires forall k :: 0 <= k < |vel| ==> vel[k] == u
    requires u == Zero || p.dragCoef == 0.0
    ensures forall k :: 0 <= k < PointCount(p) ==> CalcForces(geo, p, pos, vel)[k] == Gravity
  {
    NoDragForces(geo, p, pos, vel);
    RestingSpringsNoChange(geo, p, pos, vel, u, GravityField(p));
  }
}

=== FILE: grid.dfy ===
/** Grid addressing of the cloth: a point is identified by its rope `j` and its
    position `i` along that rope, and stored at flat index `j * C + i`, where `C`
    is the number of points per rope (src/cloth.cpp:32). `Pairs(m, n)` is the
    visiting order of any double loop with `m` outer and `n` inner steps: the
    index and drag loops run over ropes outside, the cross-spring loop
    (src/cloth.cpp:250-252) over positions outside and ropes inside. */
module Grid {

  /** Flat index of point `i` of rope `j` when every rope holds `perRope` points. */
  function Index(perRope: nat, j: nat, i: nat): nat {
    j * perRope + i
  }

  /** A point inside the grid lands inside the flat array. */
  lemma IndexInRange(ropes: nat, perRope: nat, j: nat, i: nat)
    requires j < ropes && i < perRope
    ensures Index(perRope, j, i) < ropes * perRope
  {
    assert j * perRope + perRope == (j + 1) * perRope;
    assert (j + 1) * perRope <= ropes * perRope by {
      MulMonotone(j + 1, ropes, perRope);
    }
  }

  /** Integer division and remainder recover the rope and the position along it. */
  lemma IndexRecover(perRope: nat, j: nat, i: nat)
    requires i < perRope
    ensures Index(perRope, j, i) / perRope == j
    ensures Index(perRope, j, i) % perRope == i
  {
    var k := Index(perRope, j, i);
    var q, r := k / perRope, k % perRope;
    assert k == q * perRope + r;
    if q < j {
      MulMonotone(q + 1, j, perRope);
      assert false;
    }
    if q > j {
      MulMonotone(j + 1, q, perRope);
      assert false;
    }
  }

  /** Every flat index is the index of the point its quotient and remainder name,
      and that point lies on one of the `ropes` ropes. */
  lemma IndexSurjective(ropes: nat, perRope: nat, k: nat)
    requires k < ropes * perRope
    ensures perRope > 0
    ensures k / perRope < ropes && k % perRope < perRope
    ensures Index(perRope, k / perRope, k % perRope) == k
  {
    var q := k / perRope;
    if q >= ropes {
      MulMonotone(ropes, q, perRope);
      assert false;
    }
  }

  /** The rope and position of a flat index, as a pair of numbers free of division. */
  lemma Decompose(ropes: nat, perRope: nat, k: nat) returns (j: nat, i: nat)
    requires k < ropes * perRope
    ensures j < ropes && i < perRope && Index(perRope, j, i) == k
  {
    IndexSurjective(ropes, perRope, k);
    j, i := k / perRope, k % perRope;
  }

  /** The map (j, i) ↦ j * C + i sends [0, R) × [0, C) into [0, R * C) without
      collisions; `IndexSurjective` shows that every flat index is reached, so the
      map is a bijection. */
  lemma IndexBijection(ropes: nat, perRope: nat)
    ensures forall j: nat, i: nat :: j < ropes && i < perRope ==> Index(perRope, j, i) < ropes * perRope
    ensures forall j1: nat, i1: nat, j2: nat, i2: nat ::
              i1 < perRope && i2 < perRope && Index(perRope, j1, i1) == Index(perRope, j2, i2) ==> j1 == j2 && i1 == i2
  {
    forall j: nat, i: nat | j < ropes && i < perRope
      ensures Index(perRope, j, i) < ropes * perRope
    {
      IndexInRange(ropes, perRope, j, i);
    }
    forall j1: nat, i1: nat, j2: nat, i2: nat |
      i1 < perRope && i2 < perRope && Index(perRope, j1, i1) == Index(perRope, j2, i2)
      ensures j1 == j2 && i1 == i2
    {
      IndexRecover(perRope, j1, i1);
      IndexRecover(perRope, j2, i2);
    }
  }

  lemma MulMonotone(a: nat, b: nat, c: nat)
    requires a <= b
    ensures a * c <= b * c
  {
  }

  /** The pairs (j, 0), (j, 1), …, (j, n - 1): one pass of an inner loop. */
  function Row(j: nat, n: nat): (r: seq<(nat, nat)>)
    ensures |r| == n
    ensures forall i :: 0 <= i < n ==> r[i] == (j, i)
  {
    seq(n, i requires 0 <= i < n => (j, i))
  }

  /** The pairs visited by `for (j = 0; j < m; j++) for (i = 0; i < n; i++)`,
      in visiting order. */
  function Pairs(m: nat, n: nat): (r: seq<(nat, nat)>)
    ensures |r| == m * n
  {
    if m == 0 then [] else Pairs(m - 1, n) + Row(m - 1, n)
  }

  /** Pair (j, i) is visited at step j * n + i. */
  lemma {:induction false} PairsAt(m: nat, n: nat, j: nat, i: nat)
    requires j < m && i < n
    ensures j * n + i < |Pairs(m, n)|
    ensures Pairs(m, n)[j * n + i] == (j, i)
  {
    var prefix := Pairs(m - 1, n);
    assert |prefix| == (m - 1) * n;
    if j < m - 1 {
      PairsAt(m - 1, n, j, i);
    } else {
      assert j * n == |prefix|;
    }
  }

  /** A pair is visited exactly when it lies inside the m × n rectangle. */
  lemma {:induction false} PairsMembership(m: nat, n: nat, p: (nat, nat))
    ensures p in Pairs(m, n) <==> p.0 < m && p.1 < n
  {
    if m > 0 {
      PairsMembership(m - 1, n, p);
      assert p in Pairs(m, n) <==> p in Pairs(m - 1, n) || p in Row(m - 1, n);
      if p.0 == m - 1 && p.1 < n {
        assert Row(m - 1, n)[p.1] == p;
      }
    }
  }
}

=== FILE: mesh.dfy ===
/** The fixed triangulation built by the cloth constructor (src/cloth.cpp:44-60):
    every grid cell (j, i), for ropes j < R - 1 and positions i < C - 1, yields two
    triangles with a fixed winding, written as six consecutive flat indices. */
module Mesh {
  import opened Grid

  /** The six indices of cell (j, i): triangle (a, c, b) then triangle (b, c, d),
      where a is point i of rope j, b the next point on that rope, c point i of rope
      j + 1 and d the point after c (index1..index4 of the source). */
  function CellIndices(perRope: nat, cell: (nat, nat)): (r: seq<nat>)
    ensures |r| == 6 && r[0] == Index(perRope, cell.0, cell.1) && r[1] == Index(perRope, cell.0 + 1, cell.1)
    ensures r[2] == r[0] + 1 && r[5] == r[1] + 1
    ensures r[3] == r[2] && r[4] == r[1]
  {
    var a := Index(perRope, cell.0, cell.1);
    var b := a + 1;
    var c := Index(perRope, cell.0 + 1, cell.1);
    var d := c + 1;
    [a, c, b, b, c, d]
  }

  /** The indices emitted for `cells`, in order. */
  function Flatten(perRope: nat, cells: seq<(nat, nat)>): (r: seq<nat>)
    ensures |r| == 6 * |cells|
  {
    if |cells| == 0 then [] else CellIndices(perRope, cells[0]) + Flatten(perRope, cells[1..])
  }

  /** The index list of an R × C cloth: the cells visited rope-major. */
  function TriangleIndices(ropes: nat, perRope: nat): (r: seq<nat>)
    requires ropes >= 1 && perRope >= 1
    ensures |r| == 6 * ((ropes - 1) * (perRope - 1))
  {
    Flatten(perRope, Pairs(ropes - 1, perRope - 1))
  }

  /** `num_tris_` (src/cloth.cpp:60). */
  function TriangleCount(ropes: nat, perRope: nat): nat
    requires ropes >= 1 && perRope >= 1
  {
    2 * (ropes - 1) * (perRope - 1)
  }

  /** Triangle `t` of an index list: the three indices at 3t, 3t + 1, 3t + 2. */
  function Triangle(s: seq<nat>, t: nat): (nat, nat, nat)
    requires 3 * t + 2 < |s|
  {
    (s[3 * t], s[3 * t + 1], s[3 * t + 2])
  }

  predicate Distinct3(tri: (nat, nat, nat)) {
    tri.0 != tri.1 && tri.1 != tri.2 && tri.0 != tri.2
  }

  lemma {:induction false} FlattenAt(perRope: nat, cells: seq<(nat, nat)>, q: nat, k: nat)
    requires q < |cells| && k < 6
    ensures Flatten(perRope, cells)[6 * q + k] == CellIndices(perRope, cells[q])[k]
  {
    if q > 0 {
      FlattenAt(perRope, cells[1..], q - 1, k);
    }
  }

  lemma {:induction false} FlattenAppend(perRope: nat, a: seq<(nat, nat)>, b: seq<(nat, nat)>)
    ensures Flatten(perRope, a + b) == Flatten(perRope, a) + Flatten(perRope, b)
  {
    if |a| > 0 {
      assert (a + b)[1..] == a[1..] + b;
      FlattenAppend(perRope, a[1..], b);
    } else {
      assert a + b == b;
    }
  }

  /** The index list holds 6·(R-1)·(C-1) entries, i.e. three per triangle, and
      nothing at all when the cloth is a single rope or a single column. */
  lemma MeshSize(ropes: nat, perRope: nat)
    requires ropes >= 1 && perRope >= 1
    ensures |TriangleIndices(ropes, perRope)| == 6 * (ropes - 1) * (perRope - 1)
    ensures |TriangleIndices(ropes, perRope)| == 3 * TriangleCount(ropes, perRope)
    ensures ropes == 1 || perRope == 1 ==> TriangleIndices(ropes, perRope) == [] && TriangleCount(ropes, perRope) == 0
  {
    var n := (ropes - 1) * (perRope - 1);
    assert |Pairs(ropes - 1, perRope - 1)| == n;
    assert 6 * (ropes - 1) * (perRope - 1) == 6 * n;
    assert TriangleCount(ropes, perRope) == 2 * n;
    if ropes == 1 || perRope == 1 {
      assert n == 0;
    }
  }

  /** The six slots from 6·q hold exactly the indices of cell q. */
  lemma FlattenSlice(perRope: nat, cells: seq<(nat, nat)>, q: nat)
    requires q < |cells|
    ensures 6 * q + 6 <= |Flatten(perRope, cells)|
    ensures Flatten(perRope, cells)[6 * q..6 * q + 6] == CellIndices(perRope, cells[q])
  {
    var s := Flatten(perRope, cells);
    forall k | 0 <= k < 6
      ensures s[6 * q + k] == CellIndices(perRope, cells[q])[k]
    {
      FlattenAt(perRope, cells, q, k);
    }
    assert s[6 * q..6 * q + 6] == CellIndices(perRope, cells[q]);
  }

  /** Cell (j, i) occupies slots 6·(j·(C-1)+i) .. +5, holding (a, c, b) then (b, c, d)
      with a = j·C+i, b = a+1, c = (j+1)·C+i, d = c+1. */
  lemma {:induction false} CellLayout(ropes: nat, perRope: nat, j: nat, i: nat)
    requires ropes >= 1 && perRope >= 1
    requires j < ropes - 1 && i < perRope - 1
    ensures var s := TriangleIndices(ropes, perRope);
            var at := 6 * (j * (perRope - 1) + i);
            var a := Index(perRope, j, i);
            var c := Index(perRope, j + 1, i);
            at + 6 <= |s| && s[at..at + 6] == [a, c, a + 1, a + 1, c, c + 1]
  {
    var cells := Pairs(ropes - 1, perRope - 1);
    var q := j * (perRope - 1) + i;
    PairsAt(ropes - 1, perRope - 1, j, i);
    FlattenSlice(perRope, cells, q);
    assert TriangleIndices(ropes, perRope)[6 * q..6 * q + 6] == CellIndices(perRope, (j, i));
  }

  /** Every index of the cells visited lies below R·C when those cells lie inside
      the (R-1) × (C-1) rectangle. */
  lemma {:induction false} FlattenBounded(ropes: nat, perRope: nat, cells: seq<(nat, nat)>)
    requires forall q :: 0 <= q < |cells| ==> cells[q].0 + 1 < ropes && cells[q].1 + 1 < perRope
    ensures forall k :: 0 <= k < |Flatten(perRope, cells)| ==> Flatten(perRope, cells)[k] < ropes * perRope
  {
    if |cells| > 0 {
      var cell := cells[0];
      IndexInRange(ropes, perRope, cell.0 + 1, cell.1 + 1);
      IndexInRange(ropes, perRope, cell.0, cell.1 + 1);
      assert Index(perRope, cell.0 + 1, cell.1) + 1 == Index(perRope, cell.0 + 1, cell.1 + 1);
      assert Index(perRope, cell.0, cell.1) + 1 == Index(perRope, cell.0, cell.1 + 1);
      FlattenBounded(ropes, perRope, cells[1..]);
    }
  }

  /** Every emitted index names a point of the cloth. */
  lemma IndicesInRange(ropes: nat, perRope: nat)
    requires ropes >= 1 && perRope >= 1
    ensures forall k :: 0 <= k < |TriangleIndices(ropes, perRope)| ==> TriangleIndices(ropes, perRope)[k] < ropes * perRope
  {
    var cells := Pairs(ropes - 1, perRope - 1);
    forall q | 0 <= q < |cells|
      ensures cells[q].0 + 1 < ropes && cells[q].1 + 1 < perRope
    {
      PairsMembership(ropes - 1, perRope - 1, cells[q]);
    }
    FlattenBounded(ropes, perRope, cells);
  }

  /** Both triangles of a cell inside a grid with at least two points per rope
      have three distinct corners. */
  lemma CellTrianglesDistinct(perRope: nat, cell: (nat, nat))
    requires cell.1 + 1 < perRope
    ensures Distinct3(Triangle(CellIndices(perRope, cell), 0))
    ensures Distinct3(Triangle(CellIndices(perRope, cell), 1))
  {
    assert Index(perRope, cell.0 + 1, cell.1) == Index(perRope, cell.0, cell.1) + perRope;
  }

  /** No emitted triangle repeats a corner. */
  lemma {:induction false} TrianglesDistinct(ropes: nat, perRope: nat)
    requires ropes >= 1 && perRope >= 1
    ensures forall t: nat :: 3 * t + 2 < |TriangleIndices(ropes, perRope)| ==>
              Distinct3(Triangle(TriangleIndices(ropes, perRope), t))
  {
    var s := TriangleIndices(ropes, perRope);
    var cells := Pairs(ropes - 1, perRope - 1);
    forall t: nat | 3 * t + 2 < |s|
      ensures Distinct3(Triangle(s, t))
    {
      var q, h := t / 2, t % 2;
      assert 3 * t == 6 * q + 3 * h;
      assert q < |cells|;
      FlattenAt(perRope, cells, q, 3 * h);
      FlattenAt(perRope, cells, q, 3 * h + 1);
      FlattenAt(perRope, cells, q, 3 * h + 2);
      PairsMembership(ropes - 1, perRope - 1, cells[q]);
      CellTrianglesDistinct(perRope, cells[q]);
      assert Triangle(s, t) == Triangle(CellIndices(perRope, cells[q]), h);
    }
  }

  /** One more step of the inner loop appends the six indices of cell (j, i). */
  lemma FlattenStep(perRope: nat, n: nat, j: nat, i: nat)
    ensures Flatten(perRope, Pairs(j, n) + Row(j, i + 1))
         == Flatten(perRope, Pairs(j, n) + Row(j, i)) + CellIndices(perRope, (j, i))
  {
    assert Pairs(j, n) + Row(j, i + 1) == (Pairs(j, n) + Row(j, i)) + [(j, i)];
    FlattenAppend(perRope, Pairs(j, n) + Row(j, i), [(j, i)]);
    assert Flatten(perRope, [(j, i)]) == CellIndices(perRope, (j, i));
  }

  /** The inner loop of src/cloth.cpp:46-58 for strip j: appends the six indices of
      each cell (j, 0), …, (j, C-2) to those already written for strips 0..j-1. */
  method EmitStrip(perRope: nat, j: nat, written: seq<nat>) returns (indices: seq<nat>)
    requires perRope >= 1
    requires written == Flatten(perRope, Pairs(j, perRope - 1))
    ensures indices == Flatten(perRope, Pairs(j + 1, perRope - 1))
  {
    indices := written;
    var i := 0;
    assert Pairs(j, perRope - 1) + Row(j, 0) == Pairs(j, perRope - 1);
    while i < perRope - 1
      invariant i <= perRope - 1
      invariant indices == Flatten(perRope, Pairs(j, perRope - 1) + Row(j, i))
    {
      FlattenStep(perRope, perRope - 1, j, i);
      indices := indices + CellIndices(perRope, (j, i));
      i := i + 1;
    }
  }

  /** The constructor's index loop (src/cloth.cpp:44-60), writing six indices per
      cell; it produces exactly `TriangleIndices`, three per counted triangle. */
  method BuildIndices(ropes: nat, perRope: nat) returns (indices: seq<nat>, numTris: nat)
    requires ropes >= 1 && perRope >= 1
    ensures indices == TriangleIndices(ropes, perRope)
    ensures |indices| == 3 * numTris
  {
    indices := [];
    var j := 0;
    while j < ropes - 1
      invariant j <= ropes - 1
      invariant indices == Flatten(perRope, Pairs(j, perRope - 1))
    {
      indices := EmitStrip(perRope, j, indices);
      j := j + 1;
    }
    numTris := TriangleCount(ropes, perRope);
    MeshSize(ropes, perRope);
  }
}

=== FILE: springs.dfy ===
/** The structural springs of the cloth (src/cloth.cpp:229-269). They are never
    stored: both loops derive them from grid adjacency, and each spring's force is
    added to its first endpoint and subtracted from its second. */
module Springs {
  import opened Vectors
  import opened Grid

  /** A spring whose force is added to point `a` and whose negated force goes to `b`. */
  datatype Edge = Edge(a: nat, b: nat)

  /** The springs along each rope (src/cloth.cpp:229-248): rope j, point i to point
      i + 1, for j < R and i < C - 1, in loop order. */
  function VerticalEdges(ropes: nat, perRope: nat): (es: seq<Edge>)
    requires perRope >= 1
    ensures |es| == ropes * (perRope - 1)
  {
    var ps := Pairs(ropes, perRope - 1);
    seq(|ps|, q requires 0 <= q < |ps| =>
      Edge(Index(perRope, ps[q].0, ps[q].1), Index(perRope, ps[q].0, ps[q].1) + 1))
  }

  /** The springs across ropes (src/cloth.cpp:250-269): the outer loop runs over the
      position j along the ropes, the inner one over ropes i < R - 1, linking
      j + C·i to j + C·(i + 1). */
  function HorizontalEdges(ropes: nat, perRope: nat): (es: seq<Edge>)
    requires ropes >= 1
    ensures |es| == perRope * (ropes - 1)
  {
    var ps := Pairs(perRope, ropes - 1);
    seq(|ps|, q requires 0 <= q < |ps| =>
      Edge(ps[q].0 + perRope * ps[q].1, ps[q].0 + perRope * (ps[q].1 + 1)))
  }

  /** Two consecutive points of one rope. */
  predicate AlongRope(ropes: nat, perRope: nat, e: Edge) {
    perRope > 0 && e.b == e.a + 1 && e.b < ropes * perRope && e.b % perRope != 0
  }

  /** The same position on two consecutive ropes. */
  predicate AcrossRopes(ropes: nat, perRope: nat, e: Edge) {
    e.b == e.a + perRope && e.b < ropes * perRope
  }

  /** Spring number j·(C-1)+i along the ropes joins point i of rope j to point i + 1. */
  lemma VerticalEdgeAt(ropes: nat, perRope: nat, j: nat, i: nat)
    requires perRope >= 1 && j < ropes && i < perRope - 1
    ensures j * (perRope - 1) + i < |VerticalEdges(ropes, perRope)|
    ensures VerticalEdges(ropes, perRope)[j * (perRope - 1) + i] == Edge(j * perRope + i, j * perRope + i + 1)
  {
    PairsAt(ropes, perRope - 1, j, i);
  }

  lemma VerticalEdgeMember(ropes: nat, perRope: nat, j: nat, i: nat)
    requires perRope >= 1 && j < ropes && i < perRope - 1
    ensures Edge(j * perRope + i, j * perRope + i + 1) in VerticalEdges(ropes, perRope)
  {
    VerticalEdgeAt(ropes, perRope, j, i);
    var es := VerticalEdges(ropes, perRope);
    assert es[j * (perRope - 1) + i] in es;
  }

  /** Spring number j·(R-1)+i across the ropes joins j + C·i to j + C·(i + 1). */
  lemma HorizontalEdgeAt(ropes: nat, perRope: nat, j: nat, i: nat)
    requires ropes >= 1 && j < perRope && i < ropes - 1
    ensures j * (ropes - 1) + i < |HorizontalEdges(ropes, perRope)|
    ensures HorizontalEdges(ropes, perRope)[j * (ropes - 1) + i] == Edge(j + perRope * i, j + perRope * (i + 1))
  {
    PairsAt(perRope, ropes - 1, j, i);
  }

  /** The springs along the ropes are exactly the pairs of consecutive points of a rope. */
  lemma VerticalEdgesAreRopeNeighbours(ropes: nat, perRope: nat, e: Edge)
    requires perRope >= 1
    ensures e in VerticalEdges(ropes, perRope) <==> AlongRope(ropes, perRope, e)
  {
    if e in VerticalEdges(ropes, perRope) {
      VerticalEdgeIsRopeNeighbour(ropes, perRope, e);
    }
    if AlongRope(ropes, perRope, e) {
      RopeNeighbourIsVerticalEdge(ropes, perRope, e);
    }
  }

  lemma VerticalEdgeIsRopeNeighbour(ropes: nat, perRope: nat, e: Edge)
    requires perRope >= 1
    requires e in VerticalEdges(ropes, perRope)
    ensures AlongRope(ropes, perRope, e)
  {
    var es := VerticalEdges(ropes, perRope);
    var ps := Pairs(ropes, perRope - 1);
    var q :| 0 <= q < |es| && es[q] == e;
    var j, i := ps[q].0, ps[q].1;
    PairsMembership(ropes, perRope - 1, ps[q]);
    assert e.b == Index(perRope, j, i + 1);
    IndexInRange(ropes, perRope, j, i + 1);
    IndexRecover(perRope, j, i + 1);
  }

  /** The first point of a spring along a rope is never the last point of its rope. */
  lemma AlongRopeNotLast(ropes: nat, perRope: nat, e: Edge, j: nat, i: nat)
    requires AlongRope(ropes, perRope, e)
    requires i < perRope && e.a == Index(perRope, j, i)
    ensures i < perRope - 1
  {
    if i == perRope - 1 {
      assert e.b == Index(perRope, j + 1, 0);
      IndexRecover(perRope, j + 1, 0);
      assert false;
    }
  }

  lemma RopeNeighbourIsVerticalEdge(ropes: nat, perRope: nat, e: Edge)
    requires perRope >= 1
    requires AlongRope(ropes, perRope, e)
    ensures e in VerticalEdges(ropes, perRope)
  {
    var j, i := Decompose(ropes, perRope, e.a);
    AlongRopeNotLast(ropes, perRope, e, j, i);
    assert e == Edge(j * perRope + i, j * perRope + i + 1);
    VerticalEdgeMember(ropes, perRope, j, i);
  }

  /** The springs across the ropes are exactly the pairs of points at the same
      position on consecutive ropes. */
  lemma HorizontalEdgesAreCrossNeighbours(ropes: nat, perRope: nat, e: Edge)
    requires ropes >= 1
    ensures e in HorizontalEdges(ropes, perRope) <==> AcrossRopes(ropes, perRope, e)
  {
    if e in HorizontalEdges(ropes, perRope) {
      HorizontalEdgeIsCrossNeighbour(ropes, perRope, e);
    }
    if AcrossRopes(ropes, perRope, e) {
      CrossNeighbourIsHorizontalEdge(ropes, perRope, e);
    }
  }

  lemma HorizontalEdgeIsCrossNeighbour(ropes: nat, perRope: nat, e: Edge)
    requires ropes >= 1
    requires e in HorizontalEdges(ropes, perRope)
    ensures AcrossRopes(ropes, perRope, e)
  {
    var es := HorizontalEdges(ropes, perRope);
    var ps := Pairs(perRope, ropes - 1);
    var q :| 0 <= q < |es| && es[q] == e;
    var j, i := ps[q].0, ps[q].1;
    PairsMembership(perRope, ropes - 1, ps[q]);
    assert e == Edge(j + perRope * i, j + perRope * (i + 1));
    assert perRope * (i + 1) == perRope * i + perRope;
    assert j + perRope * (i + 1) == Index(perRope, i + 1, j);
    IndexInRange(ropes, perRope, i + 1, j);
  }

  lemma CrossNeighbourIsHorizontalEdge(ropes: nat, perRope: nat, e: Edge)
    requires ropes >= 1
    requires AcrossRopes(ropes, perRope, e)
    ensures e in HorizontalEdges(ropes, perRope)
  {
    IndexSurjective(ropes, perRope, e.b);
    var i, j := e.a / perRope, e.a % perRope;
    assert Index(perRope, i, j) == e.a;
    assert e.b == Index(perRope, i + 1, j);
    IndexRecover(perRope, i + 1, j);
    HorizontalEdgeAt(ropes, perRope, j, i);
    assert HorizontalEdges(ropes, perRope)[j * (ropes - 1) + i] == e;
  }

  /** Both endpoints of every edge index into an array of `n` points. */
  predicate EdgesWithin(es: seq<Edge>, n: nat) {
    forall q :: 0 <= q < |es| ==> es[q].a < n && es[q].b < n
  }

  /** Every spring joins two distinct points of the cloth. */
  lemma SpringsWithinCloth(ropes: nat, perRope: nat)
    requires ropes >= 1 && perRope >= 1
    ensures EdgesWithin(VerticalEdges(ropes, perRope), ropes * perRope)
    ensures EdgesWithin(HorizontalEdges(ropes, perRope), ropes * perRope)
    ensures forall q :: 0 <= q < |VerticalEdges(ropes, perRope)| ==> VerticalEdges(ropes, perRope)[q].a != VerticalEdges(ropes, perRope)[q].b
    ensures forall q :: 0 <= q < |HorizontalEdges(ropes, perRope)| ==> HorizontalEdges(ropes, perRope)[q].a != HorizontalEdges(ropes, perRope)[q].b
  {
    var vs := VerticalEdges(ropes, perRope);
    forall q | 0 <= q < |vs|
      ensures vs[q].a < ropes * perRope && vs[q].b < ropes * perRope
    {
      VerticalEdgesAreRopeNeighbours(ropes, perRope, vs[q]);
    }
    var hs := HorizontalEdges(ropes, perRope);
    forall q | 0 <= q < |hs|
      ensures hs[q].a < ropes * perRope && hs[q].b < ropes * perRope && hs[q].a != hs[q].b
    {
      HorizontalEdgesAreCrossNeighbours(ropes, perRope, hs[q]);
    }
  }

  /** The accumulation loop of one spring family: spring q adds `fs[q]` to its
      first endpoint, then adds the negation of `fs[q]` to its second. */
  function ApplyEdges(forces: seq<Vec3>, es: seq<Edge>, fs: seq<Vec3>): (r: seq<Vec3>)
    requires |fs| == |es| && EdgesWithin(es, |forces|)
    ensures |r| == |forces|
    decreases |es|
  {
    if |es| == 0 then forces
    else
      var e := es[0];
      var pushed := AddAt(forces, e.a, fs[0]);
      ApplyEdges(AddAt(pushed, e.b, Neg(fs[0])), es[1..], fs[1..])
  }

  /** Newton's third law: whatever force each spring exerts, the spring contributions
      summed over all points cancel, so the total force is unchanged. */
  lemma {:induction false} SpringsCancel(forces: seq<Vec3>, es: seq<Edge>, fs: seq<Vec3>)
    requires |fs| == |es| && EdgesWithin(es, |forces|)
    ensures Sum(ApplyEdges(forces, es, fs)) == Sum(forces)
    decreases |es|
  {
    if |es| > 0 {
      var e := es[0];
      var pushed := AddAt(forces, e.a, fs[0]);
      var pulled := AddAt(pushed, e.b, Neg(fs[0]));
      SumAddAt(forces, e.a, fs[0]);
      SumAddAt(pushed, e.b, Neg(fs[0]));
      AddNeg(Sum(forces), fs[0]);
      SpringsCancel(pulled, es[1..], fs[1..]);
    }
  }

  /** A point that is not an endpoint of any spring receives no spring force. */
  lemma {:induction false} UntouchedPointUnchanged(forces: seq<Vec3>, es: seq<Edge>, fs: seq<Vec3>, k: nat)
    requires |fs| == |es| && EdgesWithin(es, |forces|)
    requires k < |forces|
    requires forall q :: 0 <= q < |es| ==> es[q].a != k && es[q].b != k
    ensures ApplyEdges(forces, es, fs)[k] == forces[k]
    decreases |es|
  {
    if |es| > 0 {
      var e := es[0];
      var pushed := AddAt(forces, e.a, fs[0]);
      UntouchedPointUnchanged(AddAt(pushed, e.b, Neg(fs[0])), es[1..], fs[1..], k);
    }
  }

  /** Springs that exert no force leave every point's force as it was. */
  lemma {:induction false} SlackSpringsNoChange(forces: seq<Vec3>, es: seq<Edge>, fs: seq<Vec3>)
    requires |fs| == |es| && EdgesWithin(es, |forces|)
    requires forall q :: 0 <= q < |fs| ==> fs[q] == Zero
    ensures ApplyEdges(forces, es, fs) == forces
    decreases |es|
  {
    if |es| > 0 {
      var e := es[0];
      AddAtZero(forces, e.a);
      assert Neg(fs[0]) == Zero;
      AddAtZero(forces, e.b);
      SlackSpringsNoChange(forces, es[1..], fs[1..]);
    }
  }
}

=== FILE: vectors.dfy ===
/** Three-dimensional vectors over the reals, standing in for glm::vec3, and
    the sum of a sequence of vectors used to state conservation properties. */
module Vectors {

  datatype Vec3 = Vec3(x: real, y: real, z: real)

  const Zero: Vec3 := Vec3(0.0, 0.0, 0.0)

  function Add(u: Vec3, v: Vec3): Vec3 {
    Vec3(u.x + v.x, u.y + v.y, u.z + v.z)
  }

  function Sub(u: Vec3, v: Vec3): Vec3 {
    Vec3(u.x - v.x, u.y - v.y, u.z - v.z)
  }

  function Scale(v: Vec3, s: real): Vec3 {
    Vec3(v.x * s, v.y * s, v.z * s)
  }

  /** `force * (-1.0f)`, the reaction applied to the far end of a spring. */
  function Neg(v: Vec3): Vec3 {
    Scale(v, -1.0)
  }

  function Dot(u: Vec3, v: Vec3): real {
    u.x * v.x + u.y * v.y + u.z * v.z
  }

  function Cross(u: Vec3, v: Vec3): Vec3 {
    Vec3(u.y * v.z - u.z * v.y, u.z * v.x - u.x * v.z, u.x * v.y - u.y * v.x)
  }

  /** The component-wise sum of all vectors of `s` (the zero vector when empty). */
  function Sum(s: seq<Vec3>): Vec3 {
    if |s| == 0 then Zero else Add(s[0], Sum(s[1..]))
  }

  /** `s[k] = s[k] + v`: accumulate `v` onto slot `k`, the only slot that changes. */
  function AddAt(s: seq<Vec3>, k: nat, v: Vec3): (r: seq<Vec3>)
    requires k < |s|
    ensures |r| == |s|
    ensures r[k] == Add(s[k], v)
    ensures forall n :: 0 <= n < |s| && n != k ==> r[n] == s[n]
  {
    s[k := Add(s[k], v)]
  }

  /** Accumulating `v` onto any one slot raises the total by exactly `v`. */
  lemma {:induction false} SumAddAt(s: seq<Vec3>, k: nat, v: Vec3)
    requires k < |s|
    ensures Sum(AddAt(s, k, v)) == Add(Sum(s), v)
  {
    var r := AddAt(s, k, v);
    if k == 0 {
      assert r[1..] == s[1..];
    } else {
      assert r[1..] == AddAt(s[1..], k - 1, v);
      SumAddAt(s[1..], k - 1, v);
    }
  }

  /** Accumulating the zero vector changes nothing. */
  lemma AddAtZero(s: seq<Vec3>, k: nat)
    requires k < |s|
    ensures AddAt(s, k, Zero) == s
  {
    assert Add(s[k], Zero) == s[k];
  }

  lemma ScaleByZero(v: Vec3)
    ensures Scale(v, 0.0) == Zero
  {
  }

  lemma ScaleScale(v: Vec3, a: real, b: real)
    ensures Scale(Scale(v, a), b) == Scale(v, a * b)
  {
  }

  /** A vector plus its negation is the zero vector. */
  lemma AddNeg(u: Vec3, v: Vec3)
    ensures Add(Add(u, v), Neg(v)) == u
  {
  }

  /** `n` copies of `g` add up to `n * g`. */
  lemma {:induction false} SumConstant(s: seq<Vec3>, g: Vec3)
    requires forall n :: 0 <= n < |s| ==> s[n] == g
    ensures Sum(s) == Scale(g, |s| as real)
  {
    if |s| > 0 {
      SumConstant(s[1..], g);
    }
  }

  /** The total of two scaled kicks applied pointwise: summing
      v[k] + f0[k]·h + f1[k]·h over k gives Σv + (Σf0)·h + (Σf1)·h. */
  lemma {:induction false} SumKicks(v: seq<Vec3>, f0: seq<Vec3>, f1: seq<Vec3>, r: seq<Vec3>, h: real)
    requires |v| == |r| && |f0| == |r| && |f1| == |r|
    requires forall k :: 0 <= k < |r| ==> r[k] == Add(Add(v[k], Scale(f0[k], h)), Scale(f1[k], h))
    ensures Sum(r) == Add(Add(Sum(v), Scale(Sum(f0), h)), Scale(Sum(f1), h))
  {
    if |r| > 0 {
      SumKicks(v[1..], f0[1..], f1[1..], r[1..], h);
      ScaleAdd(f0[0], Sum(f0[1..]), h);
      ScaleAdd(f1[0], Sum(f1[1..]), h);
    }
  }

  /** Adding two scaled vectors is adding their scaled sum. */
  lemma AddScaled(s: Vec3, x: Vec3, y: Vec3, k: real)
    ensures Add(Add(s, Scale(x, k)), Scale(y, k)) == Add(s, Scale(Add(x, y), k))
  {
    ScaleAdd(x, y, k);
  }

  /** Scaling distributes over addition. */
  lemma ScaleAdd(a: Vec3, b: Vec3, s: real)
    ensures Scale(Add(a, b), s) == Add(Scale(a, s), Scale(b, s))
  {
    assert (a.x + b.x) * s == a.x * s + b.x * s;
    assert (a.y + b.y) * s == a.y * s + b.y * s;
    assert (a.z + b.z) * s == a.z * s + b.z * s;
  }
}
